=== FILE: README.md ===
# Analog Film Lab payment functions, modelled in Dafny

This project models the three Netlify functions behind the lab's PayPal
checkout.

- **create-order** checks the order form. It packs the order's metadata
  into PayPal's 127-unit `custom_id` field, requests an access token and
  an order, and answers with the approval link.
- **paypal-webhook** handles a completed capture. It fetches the order,
  reads the metadata back from `custom_id` and resolves the customer's
  email and name. It then mails an order summary to the lab and a
  confirmation to the customer through SendGrid.
- **The shared helpers** (`_lib/paypal.mjs`) cover settings lookup, the
  sandbox/live host choice, the site origin and the Basic credentials of
  the token request.

JavaScript strings are sequences of UTF-16 code units (`JsText`), so lone
surrogates can be represented. The standard algorithms the code relies on
are modelled as real functions:

- `encodeURIComponent` and `decodeURIComponent` (ECMA-262 section 19.2.6,
  over UTF-8 as in RFC 3629): module `Uri`, with UTF-8 in `Utf8`;
- `JSON.stringify` and `JSON.parse` for flat objects of strings (string
  escaping as in section 7 of RFC 8259): module `Json`;
- Base64 (section 4 of RFC 4648): module `Base64`.

The metadata codec is `CustomId`. The handlers are `CreateOrder` and
`Webhook`. The helpers are `PayPal`.

Network replies and settings are inputs:

- the token reply (`TokenResult`);
- PayPal's order reply (`OrderReply`, `OrderFetch`);
- SendGrid's answer (a `Mailer` function from request to result);
- the settings, as two maps (`Env`): the Netlify runtime's and
  `process.env`.

A handler's outcome is its response plus the ordered list of outbound
requests it made, so "no request before the checks" and "the token
request first" become statements about that list.

Sending mail can fail in two ways, and the model keeps them apart. A
non-ok SendGrid status is logged and swallowed, so the next mail still
goes out and the answer is unchanged
(netlify/functions/paypal-webhook.mjs:27-30). A thrown send reaches the
handler's catch (netlify/functions/paypal-webhook.mjs:112-115). The
remaining mail is then skipped, and the answer is "Server error".

## Model

| member | source | states |
|---|---|---|
| PayPal.GetEnv | netlify/functions/_lib/paypal.mjs:1-3 | the Netlify value wins whenever it is defined, even when it is empty; otherwise the process value is used |
| PayPal.ToLowerAscii | netlify/functions/_lib/paypal.mjs:6 | same length; A-Z become a-z and every other unit is unchanged |
| PayPal.GetPayPalConfig | netlify/functions/_lib/paypal.mjs:5-14 | the environment name is PAYPAL_ENV lower-cased, or "sandbox" when unset or empty; the live host is chosen exactly when the name is "live", the sandbox host otherwise; the credentials pass through unchanged |
| PayPal.LiveExactlyWhenNamed | netlify/functions/_lib/paypal.mjs:6-11 | the live host is chosen if and only if PAYPAL_ENV is "live" in some mix of upper and lower case |
| PayPal.ExplicitBase | netlify/functions/_lib/paypal.mjs:54-58 | the first of Netlify URL, Netlify DEPLOY_PRIME_URL, process URL and process DEPLOY_PRIME_URL that is defined |
| PayPal.StripTrailingSlash | netlify/functions/_lib/paypal.mjs:60 | the input is the result, or the result plus one `/`, and it is the latter exactly when the input ends in `/` |
| PayPal.StripsOneSlashOnly | netlify/functions/_lib/paypal.mjs:60 | a base ending in two slashes keeps one of them |
| PayPal.RequestBaseUrl | netlify/functions/_lib/paypal.mjs:51-63 | a truthy explicit base loses at most one trailing slash; without one the origin is protocol, `//`, host |
| PayPal.BasicAuthorization | netlify/functions/_lib/paypal.mjs:17-22 | the header value is "Basic " followed by ASCII text |
| PayPal.TokenRequestFields | netlify/functions/_lib/paypal.mjs:15-26 | AccessTokenRequest: the URL is the base URL followed by `/v1/oauth2/token`; the authorization is "Basic " and text that Base64-decodes to the UTF-8 client id, a colon and the secret; the content type is form-encoded and the body is the client-credentials grant |
| PayPal.BasicCredentialsReadBack | netlify/functions/_lib/paypal.mjs:17-22 | Base64-decoding the credentials gives the UTF-8 octets of the client id, a colon and the secret; when the id has no colon, its octets hold none either, so a server splits at the right colon (RFC 7617 section 2) |
| Base64.RoundTrip | netlify/functions/_lib/paypal.mjs:17 | Encode, the `toString("base64")` of the credentials: decoding the Base64 text gives back every encoded octet |
| Base64.EncodeLength | netlify/functions/_lib/paypal.mjs:17 | four characters for every three octets or part of three, so the length is a multiple of four |
| Base64.EncodeIsAscii | netlify/functions/_lib/paypal.mjs:17 | the encoding is ASCII |
| Utf8.DecodeEncode | netlify/functions/_lib/paypal.mjs:17 | EncodeScalar, the octets `Buffer.from` writes for one code point: decoding them gives the code point |
| Utf8.EncodeDecode | netlify/functions/_lib/paypal.mjs:17 | a valid UTF-8 sequence is the only encoding of its code point |
| Utf8.EncodeAroundAscii | netlify/functions/_lib/paypal.mjs:17 | EncodeString, `Buffer.from` of the credentials: an ASCII unit between two strings becomes the same octet between their encodings |
| Utf8.AsciiOctetOnlyFromUnit | netlify/functions/_lib/paypal.mjs:17 | an ASCII octet appears in a string's encoding only if its unit appears in the string |
| Uri.EncodeUriComponent | netlify/functions/create-order.mjs:29-30 | the encoding exists exactly when the string has no lone surrogate; it holds only unreserved characters and `%`, and it is no shorter than the input |
| Uri.UriRoundTrip | netlify/functions/paypal-webhook.mjs:77 | DecodeUriComponent, the webhook's decodeURIComponent: it gives back every string encodeURIComponent accepts |
| Uri.DanglingEscapeFails | netlify/functions/paypal-webhook.mjs:76-80 | a `%` among the last two units makes decoding fail |
| Uri.TruncatedChunkFails | netlify/functions/create-order.mjs:30 | cutting one code point's escapes short leaves text the decoder rejects |
| Uri.DecodeTruncatedEncoding | netlify/functions/create-order.mjs:30 | any prefix of a string's encoding decodes, when it decodes at all, to a prefix of the string, which is non-empty when the cut is |
| Json.EscapedWellFormed | netlify/functions/create-order.mjs:29 | escaped string content holds no lone surrogate |
| Json.PrintedObjectWellFormed | netlify/functions/create-order.mjs:29 | JSON.stringify of a flat object holds no lone surrogate, so percent-encoding it cannot throw |
| Json.ParsePrintedObject | netlify/functions/create-order.mjs:29 | PrintObject and ParseObject: JSON.parse of the object JSON.stringify printed gives back its members, in order |
| CustomId.Lookup | netlify/functions/paypal-webhook.mjs:83 | a property read finds a value if and only if a member has that name, and then it is the value of the last such member |
| CustomId.FromOwnMembers | netlify/functions/create-order.mjs:28 | reading the metadata object's own members back gives every field, undefined ones included |
| CustomId.Candidate | netlify/functions/create-order.mjs:29 | the encoded JSON always exists and holds only unreserved characters and `%` |
| CustomId.Fallback | netlify/functions/create-order.mjs:30 | exists exactly when the email has no lone surrogate; the result is an ASCII prefix of the email's encoding, of length min(127, encoded length) |
| CustomId.Pack | netlify/functions/create-order.mjs:28-30 | the candidate when it fits in 127 units, otherwise the fallback; the result is at most 127 ASCII units; it is missing only when the candidate is too long and the email holds a lone surrogate |
| CustomId.PackRoundTrip | netlify/functions/create-order.mjs:28-30 | when the candidate fits, unpacking the custom_id gives back exactly the metadata that was packed |
| CustomId.UnpackPrinted | netlify/functions/paypal-webhook.mjs:75-80 | Unpack, the webhook's reading of custom_id (decodeURIComponent, then JSON.parse, with any error caught): any flat object of strings, stringified and percent-encoded, reads back as the fields its members name, the last member of a name winning |
| CustomId.EmptyTokenCarriesNoMetadata | netlify/functions/paypal-webhook.mjs:73-80 | the default empty custom_id unpacks to no metadata |
| CustomId.CutEscapeCarriesNoMetadata | netlify/functions/paypal-webhook.mjs:76-80 | a token ending inside a `%XX` escape unpacks to no metadata, not to an error |
| CustomId.FallbackUnreadable | netlify/functions/paypal-webhook.mjs:75-80 | a fallback token never parses as metadata unless the email itself starts like a JSON object |
| CustomId.FallbackCarriesNoMetadata | netlify/functions/paypal-webhook.mjs:75-85 | when the fallback is used and the email neither starts with `{` nor with whitespace, the webhook reads no metadata, so the customer email comes from the payer record |
| CreateOrder.Validate | netlify/functions/create-order.mjs:4-20 | 405, then 400 "Invalid JSON", then 400 "Missing required fields", then 400 "Invalid amount", in that order, each reply exactly for its failing check; accepted exactly when all checks pass, with the metadata amount being the normalised amount |
| CreateOrder.BuildOrder | netlify/functions/create-order.mjs:28-58 | an order exists exactly when the custom_id can be packed; it goes to the PayPal host's `/v2/checkout/orders` with "Bearer " and the access token, for intent CAPTURE; it carries the packed custom_id, the same amount string as the metadata, currency EUR, and return/cancel URLs under the site origin |
| CreateOrder.FirstApprove | netlify/functions/create-order.mjs:63 | finds a link exactly when some link has rel "approve", and then the first such link |
| CreateOrder.Finish | netlify/functions/create-order.mjs:60-69 | 200 exactly when the reply is ok and the first approve link has an href; the body is that href plus the order id; otherwise the matching 500 message |
| CreateOrder.LaterApproveLinkIgnored | netlify/functions/create-order.mjs:63-64 | a first approve link without an href fails the request, whatever later links hold |
| CreateOrder.PlaceOrder | netlify/functions/create-order.mjs:25-70 | the token request goes first; the order request is made exactly when the token is granted and the custom_id can be packed; it is the order BuildOrder makes from the metadata, the configured host, the granted token and the site origin, so for the metadata amount in EUR under the packed custom_id; every other path answers "Server error" |
| CreateOrder.Handle | netlify/functions/create-order.mjs:3-70 | a rejected request and a missing credential are answered without any outbound request; a rejected request is never answered with 200; an accepted request with both credentials set goes on to the token and order requests of PlaceOrder, for the checked metadata, the configured PayPal host and the site origin |
| CreateOrder.HandleRequests | netlify/functions/create-order.mjs:22-70 | any request goes out only with both credentials set, and the token request comes first; at most two requests; 200 only after an order request for the checked amount in EUR under the packed custom_id |
| CreateOrder.EncodingFailureIsServerError | netlify/functions/create-order.mjs:25-30 | a lone surrogate in the email, when the candidate does not fit, gives "Server error" after the token request and no order |
| Webhook.Triage | netlify/functions/paypal-webhook.mjs:52-68 | 405, 400 "Invalid JSON", 200 "Ignored other event", 200 "Missing order_id", in that order; the order is fetched exactly for a POSTed PAYMENT.CAPTURE.COMPLETED event with a truthy order id |
| Webhook.CustomIdOf | netlify/functions/paypal-webhook.mjs:72-73 | non-empty exactly when purchase_units is an array whose first unit has a truthy custom_id, which is then the result |
| Webhook.FirstTruthy | netlify/functions/paypal-webhook.mjs:82-89 | the reference meaning of a `||` chain: the first truthy value, when there is one |
| Webhook.CustomerEmail | netlify/functions/paypal-webhook.mjs:82-85 | the first truthy of meta.email, payer.email_address and payer.payer_info.email |
| Webhook.GreetingName | netlify/functions/paypal-webhook.mjs:89 | the first truthy of meta.name, payer.name.given_name and "Customer" |
| Webhook.LinesFromValues | netlify/functions/paypal-webhook.mjs:91-98 | every summary line is the line its rank calls for |
| Webhook.SummaryLayout | netlify/functions/paypal-webhook.mjs:91-98 | Summary: lines in the fixed order Name, Email, Film type, Number of rolls, Service, Total paid; the Email line always, with the resolved email; every other line exactly when its field is truthy, holding that field |
| Webhook.DecideMails | netlify/functions/paypal-webhook.mjs:82-109 | Decide: no mail exactly when no email candidate is truthy; otherwise the customer confirmation comes last, with the customer subject and the summary, preceded by the lab summary to LAB_EMAIL exactly when it is truthy |
| Webhook.Sender | netlify/functions/paypal-webhook.mjs:5-9 | the sender is Netlify FROM_EMAIL when defined, else Netlify LAB_EMAIL, else process FROM_EMAIL, else process LAB_EMAIL |
| Webhook.SendEmail | netlify/functions/paypal-webhook.mjs:3-25 | no request without an API key, a sender and a recipient; otherwise a request carrying the mail, the key and the sender |
| Webhook.Planned | netlify/functions/paypal-webhook.mjs:103-109 | every request is the one made for one of the mails, and every mail that is not skipped has its request |
| Webhook.PlannedConcat | netlify/functions/paypal-webhook.mjs:103-109 | the requests keep the order of the mails: the plan of two lists one after the other is their plans one after the other |
| Webhook.PlannedAll | netlify/functions/paypal-webhook.mjs:103-109 | when no mail is skipped, the i-th request is the i-th mail's |
| Webhook.Report | netlify/functions/paypal-webhook.mjs:103-111 | the requests are sent in plan order; no send before the last one made threw, so nothing is sent after a throw; "Webhook handled" exactly when no send threw, and then every planned request was sent; otherwise "Server error" |
| Webhook.ResolveLabFirst | netlify/functions/paypal-webhook.mjs:100-109 | with LAB_EMAIL truthy, a handled order has two mails: the lab summary to LAB_EMAIL first, the customer confirmation to a non-empty address second |
| Webhook.DeliverPair | netlify/functions/paypal-webhook.mjs:103-111 | of two sendable mails, the first's request is always made, and the second's follows it exactly when the first send did not throw |
| Webhook.LabMailFirst | netlify/functions/paypal-webhook.mjs:100-111 | with LAB_EMAIL, the API key and a sender set, the lab summary's request is the first mail request and the customer confirmation's is the second, made exactly when the lab send did not throw, so a thrown lab send means no customer mail |
| Webhook.Dispatch | netlify/functions/paypal-webhook.mjs:27-30 | sends go out in order; a refused send is swallowed; a thrown send stops the rest and is the last one made |
| Webhook.OrderUrl | netlify/functions/paypal-webhook.mjs:39 | the URL exists exactly when the order id has no lone surrogate |
| Webhook.OrderUrlCarriesId | netlify/functions/paypal-webhook.mjs:39 | the order id is one path segment after the fixed prefix; it decodes back to the id and holds no `/`, `?` or `#` |
| Webhook.Deliver | netlify/functions/paypal-webhook.mjs:87-115 | "No customer email" sends nothing; otherwise the planned sends go out in order and stop at the first thrown send, with "Webhook handled" exactly when none threw, and "Server error" otherwise |
| Webhook.AfterToken | netlify/functions/paypal-webhook.mjs:37-48 | earlier calls are kept; an id encodeURIComponent rejects is answered "Server error" with no further request; with an encodable id, the next request is the GET of the order URL with "Bearer " and the access token; with a fetched order it is followed by the delivery's mail requests and the answer is the delivery's; otherwise "Server error" with at most the order request |
| Webhook.ReconcileTokenFirst | netlify/functions/paypal-webhook.mjs:34-37 | no request without both credentials; otherwise the token request comes first |
| Webhook.ReconcileDelivers | netlify/functions/paypal-webhook.mjs:33-111 | Reconcile, once the order is fetched: the second request is the GET of the configured host's order URL with the access token; the answer is the delivery's, and its mail requests follow the token and order requests |
| Webhook.ReconcileFails | netlify/functions/paypal-webhook.mjs:33-48 | any failure before the order is held answers "Server error" after at most two requests, with no mail; a failed token or an unencodable order id leaves the token request as the only one; a failed order fetch leaves exactly the token request and the GET of the order URL with the access token |
| Webhook.Handle | netlify/functions/paypal-webhook.mjs:51-116 | a triaged answer makes no request; a completed capture with an order id is reconciled: token request, order request, then the delivery for the fetched order |
| Webhook.HandleRequests | netlify/functions/paypal-webhook.mjs:51-116 | any request needs a completed capture and both credentials, with the token request first; mail goes out only for a fetched order |

## Left out

- Network calls are not performed. Each `fetch` (the PayPal token, order create and order get, and the SendGrid send) becomes an input: its result, or a thrown call.
- Settings are read from `globalThis.Netlify.env` and `process.env`. Both are given as maps in `Env`.
- `jsonResponse` and `textResponse` are not modelled as HTTP objects. A response is its status with its text, or with its JSON fields; headers are left out.
- Logging (`console.error`) is left out.
- Parsing and formatting the amount (`Number.parseFloat`, `isFinite`, `toFixed(2)`) uses floating point. It is a parameter (`AmountFormat`) that gives the normalised string or nothing.
- `new URL(req.url)` is not parsed: its protocol and host are inputs.
- A missing `access_token` in the token reply is left out. The code would send "Bearer undefined"; the model always has a token string.
- Non-string JSON values are left out. Request fields that are numbers or booleans, and metadata or order fields that are not strings, are outside the model. `String(email)` is therefore the email itself.
- `links` that are not an array, or that contain null, are left out. In the code these make `find` throw, which gives "Server error".
- netlify/functions/capture-order.mjs is not part of this model. It wraps one PayPal call and has only a one-line input check.
- The root-level create-order.js and paypal-webhook.js are not part of this model. They are older copies that differ from the deployed functions.
- PayPal.ToLowerAscii: lower-cases ASCII only, because full Unicode case mapping is outside the model. The live/sandbox choice is the same either way, since no other character lower-cases to one of "live"; the returned `env` name can differ for non-ASCII input.
- JsText.Js: writes Dafny string literals as UTF-16 for characters of the Basic Multilingual Plane only. Every literal in the model is in that plane.

=== FILE: base64.dfy ===
/** Base64 (section 4 of RFC 4648), as Node's `buffer.toString("base64")`
    writes it: the standard alphabet, `=` padding, no line breaks. */
module Base64 {
  import opened JsText
  import opened Utf8

  const Pad: CodeUnit := 0x3D

  /** The character for a six-bit value: A-Z, a-z, 0-9, `+`, `/`. */
  function Digit(v: int): (u: CodeUnit)
    requires 0 <= v < 64
    ensures u != Pad
  {
    if v < 26 then 0x41 + v
    else if v < 52 then 0x61 + (v - 26)
    else if v < 62 then 0x30 + (v - 52)
    else if v == 62 then 0x2B
    else 0x2F
  }

  /** The six-bit value of an alphabet character; `None` for anything else. */
  function DigitValue(u: CodeUnit): (r: Option<int>)
    ensures r.Some? ==> 0 <= r.value < 64 && Digit(r.value) == u
  {
    if 0x41 <= u <= 0x5A then Some(u - 0x41)
    else if 0x61 <= u <= 0x7A then Some(u - 0x61 + 26)
    else if 0x30 <= u <= 0x39 then Some(u - 0x30 + 52)
    else if u == 0x2B then Some(62)
    else if u == 0x2F then Some(63)
    else None
  }

  lemma DigitValueOf(v: int)
    requires 0 <= v < 64
    ensures DigitValue(Digit(v)) == Some(v)
  {
  }

  /** Four characters for three octets: 24 bits cut into four sixes. */
  function EncodeGroup(b0: Byte, b1: Byte, b2: Byte): JsString {
    [Digit(b0 / 4), Digit(b0 % 4 * 16 + b1 / 16), Digit(b1 % 16 * 4 + b2 / 64), Digit(b2 % 64)]
  }

  /** The encoding of `octets`, the last group padded with `=`. */
  function Encode(octets: seq<Byte>): JsString {
    if |octets| == 0 then []
    else if |octets| == 1 then [Digit(octets[0] / 4), Digit(octets[0] % 4 * 16), Pad, Pad]
    else if |octets| == 2 then
      [Digit(octets[0] / 4), Digit(octets[0] % 4 * 16 + octets[1] / 16), Digit(octets[1] % 16 * 4), Pad]
    else EncodeGroup(octets[0], octets[1], octets[2]) + Encode(octets[3..])
  }

  /** Four characters for every three octets or part of three. */
  lemma {:induction false} EncodeLength(octets: seq<Byte>)
    ensures |Encode(octets)| == (|octets| + 2) / 3 * 4
    ensures |Encode(octets)| % 4 == 0
    decreases |octets|
  {
    if |octets| >= 3 {
      EncodeLength(octets[3..]);
      assert (|octets| + 2) / 3 == (|octets[3..]| + 2) / 3 + 1;
    }
  }

  /** The octets of one group of four characters, the last group allowed
      one or two `=`. Bits the padding discards are not checked. */
  function DecodeGroup(t: JsString, last: bool): (r: Option<seq<Byte>>)
    requires |t| == 4
    ensures r.Some? ==> 1 <= |r.value| <= 3
  {
    match (DigitValue(t[0]), DigitValue(t[1]), DigitValue(t[2]), DigitValue(t[3]))
    case (Some(v0), Some(v1), Some(v2), Some(v3)) =>
      Some([v0 * 4 + v1 / 16, v1 % 16 * 16 + v2 / 4, v2 % 4 * 64 + v3])
    case (Some(v0), Some(v1), Some(v2), None) =>
      if last && t[3] == Pad then Some([v0 * 4 + v1 / 16, v1 % 16 * 16 + v2 / 4]) else None
    case (Some(v0), Some(v1), None, None) =>
      if last && t[2] == Pad && t[3] == Pad then Some([v0 * 4 + v1 / 16]) else None
    case _ => None
  }

  /** Decodes padded Base64 text; `None` when the length is not a multiple
      of four or a character is out of place. */
  function Decode(t: JsString): Option<seq<Byte>>
    decreases |t|
  {
    if t == [] then Some([])
    else if |t| < 4 then None
    else
      match DecodeGroup(t[..4], |t| == 4)
      case None => None
      case Some(g) =>
        match Decode(t[4..])
        case None => None
        case Some(rest) => Some(g + rest)
  }

  /** Splitting an octet at bit 2 or 4 and joining the halves again. */
  lemma Rejoin(b: Byte)
    ensures b / 4 * 4 + b % 4 == b && b / 16 * 16 + b % 16 == b && b / 64 * 64 + b % 64 == b
  {
  }

  /** Four alphabet characters decode to the 24 bits they carry. */
  lemma DecodeDigits(v0: int, v1: int, v2: int, v3: int, last: bool)
    requires 0 <= v0 < 64 && 0 <= v1 < 64 && 0 <= v2 < 64 && 0 <= v3 < 64
    ensures DecodeGroup([Digit(v0), Digit(v1), Digit(v2), Digit(v3)], last)
         == Some([v0 * 4 + v1 / 16, v1 % 16 * 16 + v2 / 4, v2 % 4 * 64 + v3])
  {
    DigitValueOf(v0);
    DigitValueOf(v1);
    DigitValueOf(v2);
    DigitValueOf(v3);
  }

  /** Cutting three octets into four sixes and joining them again. */
  lemma Regroup(b0: Byte, b1: Byte, b2: Byte)
    ensures var v0, v1, v2, v3 := b0 / 4, b0 % 4 * 16 + b1 / 16, b1 % 16 * 4 + b2 / 64, b2 % 64;
            && v0 * 4 + v1 / 16 == b0 && v1 % 16 * 16 + v2 / 4 == b1 && v2 % 4 * 64 + v3 == b2
  {
    var v1, v2 := b0 % 4 * 16 + b1 / 16, b1 % 16 * 4 + b2 / 64;
    assert v1 / 16 == b0 % 4 && v1 % 16 == b1 / 16;
    assert v2 / 4 == b1 % 16 && v2 % 4 == b2 / 64;
    Rejoin(b0);
    Rejoin(b1);
    Rejoin(b2);
  }

  lemma DecodeFullGroup(b0: Byte, b1: Byte, b2: Byte, last: bool)
    ensures DecodeGroup(EncodeGroup(b0, b1, b2), last) == Some([b0, b1, b2])
  {
    DecodeDigits(b0 / 4, b0 % 4 * 16 + b1 / 16, b1 % 16 * 4 + b2 / 64, b2 % 64, last);
    Regroup(b0, b1, b2);
  }

  lemma DecodeOneOctet(b0: Byte)
    ensures DecodeGroup(Encode([b0]), true) == Some([b0])
  {
    Rejoin(b0);
    DigitValueOf(b0 / 4);
    DigitValueOf(b0 % 4 * 16);
    assert DigitValue(Pad) == None;
  }

  lemma DecodeTwoOctets(b0: Byte, b1: Byte)
    ensures DecodeGroup(Encode([b0, b1]), true) == Some([b0, b1])
  {
    var v1, v2 := b0 % 4 * 16 + b1 / 16, b1 % 16 * 4;
    DigitValueOf(b0 / 4);
    DigitValueOf(v1);
    DigitValueOf(v2);
    assert v1 / 16 == b0 % 4 && v1 % 16 == b1 / 16;
    assert v2 / 4 == b1 % 16;
    Rejoin(b0);
    Rejoin(b1);
    assert DigitValue(Pad) == None;
  }

  lemma FrontThree(s: seq<Byte>)
    requires |s| >= 3
    ensures [s[0], s[1], s[2]] + s[3..] == s
  {
  }

  /** One group decoded in front of the rest. */
  lemma DecodeCons(t: JsString, g: seq<Byte>, rest: seq<Byte>)
    requires |t| >= 4 && DecodeGroup(t[..4], |t| == 4) == Some(g) && Decode(t[4..]) == Some(rest)
    ensures Decode(t) == Some(g + rest)
  {
  }

  /** A last group of one octet, padded with `==`. */
  lemma RoundTripOne(b0: Byte)
    ensures Decode(Encode([b0])) == Some([b0])
  {
    var t := Encode([b0]);
    assert |t| == 4 && t[..4] == t && t[4..] == [];
    DecodeOneOctet(b0);
    DecodeCons(t, [b0], []);
    assert [b0] + [] == [b0];
  }

  /** A last group of two octets, padded with `=`. */
  lemma RoundTripTwo(b0: Byte, b1: Byte)
    ensures Decode(Encode([b0, b1])) == Some([b0, b1])
  {
    var t := Encode([b0, b1]);
    assert |t| == 4 && t[..4] == t && t[4..] == [];
    DecodeTwoOctets(b0, b1);
    DecodeCons(t, [b0, b1], []);
    assert [b0, b1] + [] == [b0, b1];
  }

  /** A full group in front of octets that round-trip. */
  lemma RoundTripStep(octets: seq<Byte>)
    requires |octets| >= 3 && Decode(Encode(octets[3..])) == Some(octets[3..])
    ensures Decode(Encode(octets)) == Some(octets)
  {
    var t := Encode(octets);
    var g := EncodeGroup(octets[0], octets[1], octets[2]);
    var e := Encode(octets[3..]);
    assert t == g + e;
    assert t[..4] == g && t[4..] == e;
    DecodeFullGroup(octets[0], octets[1], octets[2], |t| == 4);
    DecodeCons(t, [octets[0], octets[1], octets[2]], octets[3..]);
    FrontThree(octets);
  }

  /** Round trip: decoding gives back every octet that was encoded. */
  lemma {:induction false} RoundTrip(octets: seq<Byte>)
    ensures Decode(Encode(octets)) == Some(octets)
    decreases |octets|
  {
    if |octets| >= 3 {
      RoundTrip(octets[3..]);
      RoundTripStep(octets);
    } else if |octets| == 2 {
      RoundTripTwo(octets[0], octets[1]);
      assert [octets[0], octets[1]] == octets;
    } else if |octets| == 1 {
      RoundTripOne(octets[0]);
      assert [octets[0]] == octets;
    }
  }

  /** The encoding uses only the alphabet and `=`, all of it ASCII. */
  lemma {:induction false} EncodeIsAscii(octets: seq<Byte>)
    ensures IsAscii(Encode(octets))
    decreases |octets|
  {
    if |octets| >= 3 {
      EncodeIsAscii(octets[3..]);
    }
  }
}

=== FILE: create_order.dfy ===
/** The create-order function (netlify/functions/create-order.mjs): checks
    the order form, packs its metadata into a custom_id and asks PayPal for
    an order whose approval link it returns. Network replies are inputs;
    the outbound requests are part of the outcome. */
module CreateOrder {
  import opened JsText
  import opened CustomId
  import opened PayPal

  /** The fields destructured from the request body. JSON that is null or
      not an object leaves every field undefined. */
  datatype Body = Body(
    name: Option<JsString>,
    email: Option<JsString>,
    film: Option<JsString>,
    rolls: Option<JsString>,
    serviceText: Option<JsString>,
    amount: Option<JsString>)

  /** An incoming request; `body` is `None` when `req.json()` throws, and
      `protocol` and `host` are those of the request URL. */
  datatype Request = Request(httpMethod: JsString, body: Option<Body>, protocol: JsString, host: JsString)

  /** `Number.parseFloat(String(amount))` followed by `toFixed(2)`: `None`
      when the parse is not finite or not above zero. Floating point is not
      modelled, so the conversion is a parameter. */
  type AmountFormat = JsString -> Option<JsString>

  datatype Link = Link(rel: Option<JsString>, href: Option<JsString>)

  /** PayPal's reply to the order request: its status and the parts of the
      body the handler reads (a body that is not JSON reads as `{}`, so no
      links and no id), or a thrown fetch. */
  datatype OrderReply = OrderReply(ok: bool, links: seq<Link>, id: Option<JsString>) | OrderThrew

  /** The order creation request: URL, bearer authorization and the fields
      of the JSON body. */
  datatype OrderRequest = OrderRequest(
    url: JsString,
    authorization: JsString,
    intent: JsString,
    currency: JsString,
    value: JsString,
    customId: JsString,
    brandName: JsString,
    landingPage: JsString,
    userAction: JsString,
    returnUrl: JsString,
    cancelUrl: JsString)

  datatype Call = TokenCall(token: TokenRequest) | CreateCall(order: OrderRequest)

  datatype Outcome = Outcome(response: Response, calls: seq<Call>)

  /** The result of the checks before any configuration is read. */
  datatype Checked = Rejected(response: Response) | Accepted(meta: Meta)

  function Eur(): JsString { Js("EUR") }

  /** Method, JSON, required fields and amount, in that order. An accepted
      request yields the metadata object, whose amount is the normalised
      amount string. */
  function Validate(req: Request, format: AmountFormat): (r: Checked)
    ensures req.httpMethod != Post() ==> r == Rejected(Text(405, Js("Method Not Allowed")))
    ensures req.httpMethod == Post() && req.body.None? ==> r == Rejected(Text(400, Js("Invalid JSON")))
    ensures req.httpMethod == Post() && req.body.Some?
            && !(Truthy(req.body.value.name) && Truthy(req.body.value.email) && Truthy(req.body.value.amount))
            ==> r == Rejected(Text(400, Js("Missing required fields")))
    ensures r.Accepted? <==>
              && req.httpMethod == Post() && req.body.Some?
              && Truthy(req.body.value.name) && Truthy(req.body.value.email) && Truthy(req.body.value.amount)
              && format(req.body.value.amount.value).Some?
    ensures req.httpMethod == Post() && req.body.Some?
            && Truthy(req.body.value.name) && Truthy(req.body.value.email) && Truthy(req.body.value.amount)
            && format(req.body.value.amount.value).None?
            ==> r == Rejected(Text(400, Js("Invalid amount")))
    ensures r.Accepted? ==>
              var b := req.body.value;
              r.meta == Meta(b.name, b.email, b.film, b.rolls, b.serviceText, format(b.amount.value))
              && Truthy(r.meta.name) && Truthy(r.meta.email) && r.meta.amount.Some?
  {
    if req.httpMethod != Post() then Rejected(Text(405, Js("Method Not Allowed")))
    else if req.body.None? then Rejected(Text(400, Js("Invalid JSON")))
    else
      var b := req.body.value;
      if !Truthy(b.name) || !Truthy(b.email) || !Truthy(b.amount) then
        Rejected(Text(400, Js("Missing required fields")))
      else
        match format(b.amount.value)
        case None => Rejected(Text(400, Js("Invalid amount")))
        case Some(fixed) => Accepted(Meta(b.name, b.email, b.film, b.rolls, b.serviceText, Some(fixed)))
  }

  /** The order request for the packed custom_id: the charged value and the
      metadata's amount are one string, and the currency is always EUR. */
  function BuildOrder(meta: Meta, config: Config, accessToken: JsString, siteBase: JsString): (r: Option<OrderRequest>)
    requires meta.email.Some? && meta.amount.Some?
    ensures r.Some? <==> Pack(meta).Some?
    ensures r.Some? ==>
              && r.value.customId == Pack(meta).value && |r.value.customId| <= MaxLength
              && r.value.value == meta.amount.value && r.value.currency == Eur()
              && r.value.url == config.baseUrl + Js("/v2/checkout/orders")
              && r.value.authorization == Js("Bearer ") + accessToken
              && r.value.intent == Js("CAPTURE")
              && r.value.returnUrl == siteBase + Js("/payment-success.html")
              && r.value.cancelUrl == siteBase + Js("/payment-cancel.html")
  {
    match Pack(meta)
    case None => None
    case Some(customId) =>
      Some(OrderRequest(
        config.baseUrl + Js("/v2/checkout/orders"),
        Js("Bearer ") + accessToken,
        Js("CAPTURE"),
        Eur(),
        meta.amount.value,
        customId,
        Js("Analog Film Lab"),
        Js("NO_PREFERENCE"),
        Js("PAY_NOW"),
        siteBase + Js("/payment-success.html"),
        siteBase + Js("/payment-cancel.html")))
  }

  predicate IsApprove(l: Link) {
    l.rel == Some(Js("approve"))
  }

  /** `links.find(l => l.rel === "approve")`: the first approve link. */
  function FirstApprove(links: seq<Link>): (r: Option<Link>)
    ensures r.Some? <==> exists i | 0 <= i < |links| :: IsApprove(links[i])
    ensures r.Some? ==> exists i | 0 <= i < |links| :: links[i] == r.value && IsApprove(links[i])
                                                    && forall j | 0 <= j < i :: !IsApprove(links[j])
  {
    if links == [] then None
    else if IsApprove(links[0]) then Some(links[0])
    else
      var r := FirstApprove(links[1..]);
      assert forall i | 1 <= i < |links| :: links[i] == links[1..][i - 1];
      r
  }

  /** The response to PayPal's reply: the href of the first approve link
      with the order id, or the error for a thrown call, a failed status or
      a first approve link without an href. */
  function Finish(reply: OrderReply): (r: Response)
    ensures reply.OrderThrew? ==> r == ServerError()
    ensures reply.OrderReply? && !reply.ok ==> r == Text(500, Js("Failed to create PayPal order"))
    ensures r.status == 200 <==>
              reply.OrderReply? && reply.ok && FirstApprove(reply.links).Some?
              && Truthy(FirstApprove(reply.links).value.href)
    ensures reply.OrderReply? && reply.ok && r.status != 200 ==> r == Text(500, Js("No PayPal approval link found"))
    ensures r.status == 200 ==>
              r.Object? && |r.fields| >= 1
              && r.fields[0] == (Js("approveUrl"), FirstApprove(reply.links).value.href.value)
              && r.fields[1..] == Field(Js("orderId"), reply.id)
  {
    match reply
    case OrderThrew => ServerError()
    case OrderReply(ok, links, id) =>
      if !ok then Text(500, Js("Failed to create PayPal order"))
      else
        var link := FirstApprove(links);
        if link.None? || !Truthy(link.value.href) then Text(500, Js("No PayPal approval link found"))
        else Object(200, [(Js("approveUrl"), link.value.href.value)] + Field(Js("orderId"), id))
  }

  /** The steps after the checks and the configuration: the token request,
      then the order request unless the custom_id cannot be encoded, then
      the answer read from PayPal's reply. */
  function PlaceOrder(meta: Meta, config: Config, token: TokenResult, reply: OrderReply, siteBase: JsString): (o: Outcome)
    requires meta.email.Some? && meta.amount.Some? && Truthy(config.clientId) && Truthy(config.secret)
    ensures 1 <= |o.calls| <= 2
    ensures o.calls[0] == TokenCall(AccessTokenRequest(config.baseUrl, config.clientId.value, config.secret.value))
    ensures |o.calls| == 1 ==> o.response == ServerError()
    ensures |o.calls| == 2 <==> token.Granted? && Pack(meta).Some?
    ensures |o.calls| == 2 ==> o.calls[1] == CreateCall(BuildOrder(meta, config, token.accessToken, siteBase).value)
    ensures |o.calls| == 2 ==>
              && o.calls[1].CreateCall?
              && o.calls[1].order.value == meta.amount.value
              && o.calls[1].order.currency == Eur()
              && Pack(meta) == Some(o.calls[1].order.customId)
              && o.response == Finish(reply)
  {
    var tokenCall := TokenCall(AccessTokenRequest(config.baseUrl, config.clientId.value, config.secret.value));
    match token
    case TokenFailed => Outcome(ServerError(), [tokenCall])
    case Granted(accessToken) =>
      match BuildOrder(meta, config, accessToken, siteBase)
      case None => Outcome(ServerError(), [tokenCall])
      case Some(order) => Outcome(Finish(reply), [tokenCall, CreateCall(order)])
  }

  /** The configuration check, then the order steps. */
  function Configured(meta: Meta, env: Env, token: TokenResult, reply: OrderReply, siteBase: JsString): (o: Outcome)
    requires meta.email.Some? && meta.amount.Some?
    ensures !(Truthy(GetPayPalConfig(env).clientId) && Truthy(GetPayPalConfig(env).secret))
            ==> o == Outcome(Text(500, Js("PayPal not configured")), [])
    ensures Truthy(GetPayPalConfig(env).clientId) && Truthy(GetPayPalConfig(env).secret)
            ==> o == PlaceOrder(meta, GetPayPalConfig(env), token, reply, siteBase)
  {
    var config := GetPayPalConfig(env);
    if !Truthy(config.clientId) || !Truthy(config.secret) then Outcome(Text(500, Js("PayPal not configured")), [])
    else PlaceOrder(meta, config, token, reply, siteBase)
  }

  /** The whole handler: no request leaves before the checks pass and both
      credentials are set. */
  function Handle(req: Request, env: Env, format: AmountFormat, token: TokenResult, reply: OrderReply): (o: Outcome)
    ensures Validate(req, format).Rejected? ==> o == Outcome(Validate(req, format).response, [])
    ensures Validate(req, format).Accepted? && !(Truthy(GetPayPalConfig(env).clientId) && Truthy(GetPayPalConfig(env).secret))
            ==> o == Outcome(Text(500, Js("PayPal not configured")), [])
    ensures Validate(req, format).Accepted? && Truthy(GetPayPalConfig(env).clientId) && Truthy(GetPayPalConfig(env).secret)
            ==> o == PlaceOrder(Validate(req, format).meta, GetPayPalConfig(env), token, reply,
                                RequestBaseUrl(env, req.protocol, req.host))
    ensures Validate(req, format).Rejected? ==> o.response.status != 200
  {
    match Validate(req, format)
    case Rejected(response) => Outcome(response, [])
    case Accepted(meta) => Configured(meta, env, token, reply, RequestBaseUrl(env, req.protocol, req.host))
  }

  /** The requests the handler sends: the token request goes first; an
      order is created only for the checked amount in EUR under the packed
      custom_id; and only a created order can be answered with 200. */
  lemma HandleRequests(req: Request, env: Env, format: AmountFormat, token: TokenResult, reply: OrderReply)
    ensures var o := Handle(req, env, format, token, reply);
            && (o.calls != [] ==>
                  var c := GetPayPalConfig(env);
                  Truthy(c.clientId) && Truthy(c.secret)
                  && o.calls[0] == TokenCall(AccessTokenRequest(c.baseUrl, c.clientId.value, c.secret.value)))
            && |o.calls| <= 2
            && (|o.calls| == 1 ==> o.response == ServerError())
            && (o.response.status == 200 ==> |o.calls| == 2)
    ensures var o := Handle(req, env, format, token, reply);
            |o.calls| == 2 ==>
              && Validate(req, format).Accepted?
              && var meta := Validate(req, format).meta;
              && o.calls[1].CreateCall?
              && o.calls[1].order.value == meta.amount.value
              && o.calls[1].order.currency == Eur()
              && Pack(meta) == Some(o.calls[1].order.customId)
              && o.response == Finish(reply)
  {
  }

  /** A lone surrogate in the email, when the candidate does not fit, makes
      the fallback encoding throw: the handler answers "Server error" after
      the token call, and no order is created. */
  lemma EncodingFailureIsServerError(req: Request, env: Env, format: AmountFormat, token: TokenResult, reply: OrderReply)
    requires Validate(req, format).Accepted?
    requires Truthy(GetPayPalConfig(env).clientId) && Truthy(GetPayPalConfig(env).secret) && token.Granted?
    requires var meta := Validate(req, format).meta;
             MaxLength < |Candidate(meta)| && !WellFormed(meta.email.value)
    ensures Handle(req, env, format, token, reply).response == ServerError()
    ensures |Handle(req, env, format, token, reply).calls| == 1
  {
  }

  /** Only the first approve link counts: when it has no href the handler
      fails, whatever later links carry. */
  lemma LaterApproveLinkIgnored(first: Link, later: seq<Link>, id: Option<JsString>)
    requires IsApprove(first) && !Truthy(first.href)
    ensures Finish(OrderReply(true, [first] + later, id)) == Text(500, Js("No PayPal approval link found"))
  {
    assert FirstApprove([first] + later) == Some(first);
  }
}

=== FILE: custom_id.dfy ===
/** The order metadata smuggled through PayPal's `custom_id` field: packed
    by create-order as percent-encoded JSON, with an email-only fallback
    when that does not fit in 127 units, and unpacked by the webhook with
    every failure turned into "no metadata". */
module CustomId {
  import opened JsText
  import opened Uri
  import opened Json

  /** The longest custom_id PayPal accepts. */
  const MaxLength: nat := 127

  /** The metadata object; `None` is an undefined field. */
  datatype Meta = Meta(
    name: Option<JsString>,
    email: Option<JsString>,
    film: Option<JsString>,
    rolls: Option<JsString>,
    serviceText: Option<JsString>,
    amount: Option<JsString>)

  function NameKey(): JsString { Js("name") }
  function EmailKey(): JsString { Js("email") }
  function FilmKey(): JsString { Js("film") }
  function RollsKey(): JsString { Js("rolls") }
  function ServiceKey(): JsString { Js("serviceText") }
  function AmountKey(): JsString { Js("amount") }

  function Min(a: int, b: int): int { if a <= b then a else b }

  /** A defined field as a member; an undefined one is left out. */
  function Field(key: JsString, v: Option<JsString>): seq<Member> {
    if v.Some? then [(key, v.value)] else []
  }

  /** The members JSON.stringify writes for the metadata object, in the
      order of its object literal. */
  function Members(m: Meta): seq<Member> {
    Field(NameKey(), m.name) + Field(EmailKey(), m.email) + Field(FilmKey(), m.film)
      + Field(RollsKey(), m.rolls) + Field(ServiceKey(), m.serviceText) + Field(AmountKey(), m.amount)
  }

  /** Property access on a parsed object: the value of the last member with
      that name, since JSON.parse lets a later duplicate win. */
  function Lookup(ms: seq<Member>, key: JsString): (r: Option<JsString>)
    ensures r.Some? <==> exists i | 0 <= i < |ms| :: ms[i].0 == key
    ensures r.Some? ==> exists i | 0 <= i < |ms| :: ms[i] == (key, r.value) && forall j | i < j < |ms| :: ms[j].0 != key
  {
    if ms == [] then None
    else if ms[|ms| - 1].0 == key then Some(ms[|ms| - 1].1)
    else
      var r := Lookup(ms[..|ms| - 1], key);
      assert forall i | 0 <= i < |ms| - 1 :: ms[..|ms| - 1][i] == ms[i];
      r
  }

  /** The metadata the webhook sees in a parsed object. */
  function FromMembers(ms: seq<Member>): Meta {
    Meta(Lookup(ms, NameKey()), Lookup(ms, EmailKey()), Lookup(ms, FilmKey()),
         Lookup(ms, RollsKey()), Lookup(ms, ServiceKey()), Lookup(ms, AmountKey()))
  }

  /** `encodeURIComponent(JSON.stringify(metaObj))`: it never throws, since
      JSON.stringify leaves no lone surrogate. */
  function Candidate(m: Meta): (c: JsString)
    ensures IsEncoded(c)
  {
    PrintedObjectWellFormed(Members(m));
    EncodeUriComponent(PrintObject(Members(m))).value
  }

  /** `encodeURIComponent(String(email)).slice(0, 127)`; `None` is the
      URIError thrown for a lone surrogate in the email. */
  function Fallback(email: JsString): (r: Option<JsString>)
    ensures r.Some? <==> WellFormed(email)
    ensures r.Some? ==> IsAscii(r.value) && r.value <= EncodeUriComponent(email).value
    ensures r.Some? ==> |r.value| == Min(MaxLength, |EncodeUriComponent(email).value|)
  {
    match EncodeUriComponent(email)
    case None => None
    case Some(e) =>
      var token := e[..Min(MaxLength, |e|)];
      assert IsEncoded(token);
      EncodedIsAscii(token);
      Some(token)
  }

  /** The custom_id create-order attaches: the candidate when it fits in
      127 units, otherwise the fallback. */
  function Pack(m: Meta): (r: Option<JsString>)
    requires m.email.Some?
    ensures r.Some? ==> |r.value| <= MaxLength && IsAscii(r.value)
    ensures |Candidate(m)| <= MaxLength ==> r == Some(Candidate(m))
    ensures MaxLength < |Candidate(m)| ==> r == Fallback(m.email.value)
    ensures r.None? <==> MaxLength < |Candidate(m)| && !WellFormed(m.email.value)
  {
    var candidate := Candidate(m);
    EncodedIsAscii(candidate);
    if |candidate| <= MaxLength then Some(candidate) else Fallback(m.email.value)
  }

  /** `JSON.parse(decodeURIComponent(customId))` inside the webhook's
      try/catch: a malformed escape, text that is not a flat object of
      strings, or an empty token all give `None`, never an error. */
  function Unpack(token: JsString): Option<Meta> {
    match DecodeUriComponent(token)
    case None => None
    case Some(text) =>
      match ParseObject(text)
      case None => None
      case Some(ms) => Some(FromMembers(ms))
  }

  /** The webhook's default token, the empty string, carries no metadata. */
  lemma EmptyTokenCarriesNoMetadata()
    ensures Unpack([]) == None
  {
    NotAnObject([]);
  }

  /** A token whose last `%` has fewer than two units after it, as a cut
      through an escape leaves it, carries no metadata: decoding fails and
      the failure is caught. */
  lemma CutEscapeCarriesNoMetadata(token: JsString, p: nat)
    requires p < |token| <= p + 2 && token[p] == Percent
    ensures Unpack(token) == None
  {
    DanglingEscapeFails(token, p);
  }

  /** Later members decide a lookup; earlier ones only fill in. */
  lemma LookupConcat(a: seq<Member>, b: seq<Member>, key: JsString)
    ensures Lookup(a + b, key) == if Lookup(b, key).Some? then Lookup(b, key) else Lookup(a, key)
    decreases |b|
  {
    if b != [] {
      assert (a + b)[..|a + b| - 1] == a + b[..|b| - 1];
      LookupConcat(a, b[..|b| - 1], key);
    } else {
      assert a + b == a;
    }
  }

  /** Appending one field changes the lookup of its own key only. */
  lemma LookupAppendField(a: seq<Member>, key: JsString, v: Option<JsString>, k: JsString)
    ensures Lookup(a + Field(key, v), k) == if key == k && v.Some? then v else Lookup(a, k)
  {
    LookupConcat(a, Field(key, v), k);
  }

  /** A key's value among the metadata's members: the field stored under
      that key, if it is defined. */
  lemma LookupMembers(m: Meta, k: JsString)
    ensures Lookup(Members(m), k) ==
      if k == AmountKey() && m.amount.Some? then m.amount
      else if k == ServiceKey() && m.serviceText.Some? then m.serviceText
      else if k == RollsKey() && m.rolls.Some? then m.rolls
      else if k == FilmKey() && m.film.Some? then m.film
      else if k == EmailKey() && m.email.Some? then m.email
      else if k == NameKey() && m.name.Some? then m.name
      else None
  {
    var a := Field(NameKey(), m.name);
    var b := a + Field(EmailKey(), m.email);
    var c := b + Field(FilmKey(), m.film);
    var d := c + Field(RollsKey(), m.rolls);
    var e := d + Field(ServiceKey(), m.serviceText);
    assert Members(m) == e + Field(AmountKey(), m.amount);
    LookupAppendField([], NameKey(), m.name, k);
    assert [] + a == a;
    LookupAppendField(a, EmailKey(), m.email, k);
    LookupAppendField(b, FilmKey(), m.film, k);
    LookupAppendField(c, RollsKey(), m.rolls, k);
    LookupAppendField(d, ServiceKey(), m.serviceText, k);
    LookupAppendField(e, AmountKey(), m.amount, k);
  }

  /** Reading the metadata back from its own members gives every field. */
  lemma FromOwnMembers(m: Meta)
    ensures FromMembers(Members(m)) == m
  {
    assert NameKey()[0] != FilmKey()[0] && EmailKey()[0] != RollsKey()[0];
    LookupMembers(m, NameKey());
    LookupMembers(m, EmailKey());
    LookupMembers(m, FilmKey());
    LookupMembers(m, RollsKey());
    LookupMembers(m, ServiceKey());
    LookupMembers(m, AmountKey());
  }

  /** Any flat object of strings, printed and percent-encoded, is read
      back by the webhook as the metadata its members name: unknown names
      are ignored and the last member of a name wins. */
  lemma UnpackPrinted(ms: seq<Member>)
    ensures EncodeUriComponent(PrintObject(ms)).Some?
    ensures Unpack(EncodeUriComponent(PrintObject(ms)).value) == Some(FromMembers(ms))
  {
    PrintedObjectWellFormed(ms);
    UriRoundTrip(PrintObject(ms));
    ParsePrintedObject(ms);
  }

  /** Round trip: when the candidate fits, the webhook reads back exactly
      the metadata create-order packed. */
  lemma PackRoundTrip(m: Meta)
    requires m.email.Some? && |Candidate(m)| <= MaxLength
    ensures Unpack(Pack(m).value) == Some(m)
  {
    UnpackPrinted(Members(m));
    FromOwnMembers(m);
  }

  /** Text that does not start with `{` or whitespace is no object. */
  lemma NotAnObject(d: JsString)
    requires d == [] || (d[0] != OpenBrace && !IsWhitespace(d[0]))
    ensures ParseObject(d) == None
  {
    if d != [] {
      assert SkipWhitespace(d) == d;
    }
  }

  /** A cut of an email's encoding decodes, if at all, to a prefix of the
      email, which is no JSON object unless the email starts like one. */
  lemma FallbackUnreadable(email: JsString)
    requires WellFormed(email)
    requires email == [] || (email[0] != OpenBrace && !IsWhitespace(email[0]))
    ensures Unpack(Fallback(email).value) == None
  {
    var e := EncodeUriComponent(email).value;
    var k := Min(MaxLength, |e|);
    DecodeTruncatedEncoding(email, k);
    var decoded := DecodeUriComponent(e[..k]);
    if decoded.Some? {
      var d := decoded.value;
      assert d != [] ==> d[0] == email[0];
      if email == [] {
        assert e == [];
      }
      NotAnObject(d);
    }
  }

  /** The fallback token never yields metadata: the webhook then works from
      the payer's details alone. */
  lemma FallbackCarriesNoMetadata(m: Meta)
    requires m.email.Some? && MaxLength < |Candidate(m)| && Pack(m).Some?
    requires m.email.value == [] || (m.email.value[0] != OpenBrace && !IsWhitespace(m.email.value[0]))
    ensures Unpack(Pack(m).value) == None
  {
    FallbackUnreadable(m.email.value);
  }
}

=== FILE: js_text.dfy ===
/** JavaScript string values as the handlers see them: sequences of UTF-16
    code units (which may hold lone surrogates), together with the few
    ECMAScript value conversions the handlers rely on (`??`, `||`, truthiness). */
module JsText {

  datatype Option<+T> = None | Some(value: T)

  /** One UTF-16 code unit. */
  type CodeUnit = u: int | 0 <= u < 0x1_0000

  /** A JavaScript string. */
  type JsString = seq<CodeUnit>

  /** `:`, which separates a JSON member's name from its value and the
      client id from the secret in Basic credentials. */
  const Colon: CodeUnit := 0x3A

  /** A Unicode scalar value: a code point that is not a surrogate. */
  type Scalar = cp: int | 0 <= cp <= 0x10_FFFF && !(0xD800 <= cp <= 0xDFFF)

  predicate IsHighSurrogate(u: CodeUnit) { 0xD800 <= u <= 0xDBFF }

  predicate IsLowSurrogate(u: CodeUnit) { 0xDC00 <= u <= 0xDFFF }

  predicate IsSurrogate(u: CodeUnit) { 0xD800 <= u <= 0xDFFF }

  /** A string without lone surrogates: every leading surrogate is
      immediately followed by a trailing one, and every trailing surrogate
      immediately follows a leading one. */
  predicate WellFormed(s: JsString) {
    && (forall i {:trigger IsHighSurrogate(s[i])} | 0 <= i < |s| && IsHighSurrogate(s[i]) :: i + 1 < |s| && IsLowSurrogate(s[i + 1]))
    && (forall i {:trigger IsLowSurrogate(s[i])} | 0 <= i < |s| && IsLowSurrogate(s[i]) :: 0 < i && IsHighSurrogate(s[i - 1]))
  }

  predicate IsAscii(s: JsString) {
    forall i | 0 <= i < |s| :: s[i] < 0x80
  }

  /** UTF16EncodeCodePoint: one unit below U+10000, a surrogate pair above. */
  function Utf16(cp: Scalar): (r: JsString)
    ensures |r| == (if cp < 0x1_0000 then 1 else 2)
    ensures |r| == 1 ==> r[0] == cp && !IsSurrogate(r[0])
    ensures |r| == 2 ==> IsHighSurrogate(r[0]) && IsLowSurrogate(r[1]) && PairValue(r[0], r[1]) == cp
  {
    if cp < 0x1_0000 then [cp]
    else [0xD800 + (cp - 0x1_0000) / 0x400, 0xDC00 + (cp - 0x1_0000) % 0x400]
  }

  /** The code point a surrogate pair stands for (CodePointAt). */
  function PairValue(hi: CodeUnit, lo: CodeUnit): (cp: Scalar)
    requires IsHighSurrogate(hi) && IsLowSurrogate(lo)
    ensures 0x1_0000 <= cp
  {
    0x1_0000 + (hi - 0xD800) * 0x400 + (lo - 0xDC00)
  }

  /** How many units the first code point of `s` occupies: two for a
      surrogate pair, one otherwise. */
  function FirstLength(s: JsString): (n: nat)
    requires |s| > 0
    ensures 1 <= n <= |s|
  {
    if |s| > 1 && IsHighSurrogate(s[0]) && IsLowSurrogate(s[1]) then 2 else 1
  }

  /** The first code point of `s`, a lone surrogate read as U+FFFD. */
  function FirstScalar(s: JsString): Scalar
    requires |s| > 0
  {
    if FirstLength(s) == 2 then PairValue(s[0], s[1])
    else if IsSurrogate(s[0]) then 0xFFFD
    else s[0]
  }

  /** A string is well formed exactly when its first code point is not a
      lone surrogate and the rest is well formed. */
  lemma WellFormedFirst(s: JsString)
    requires |s| > 0
    ensures IsSurrogate(s[0]) && FirstLength(s) == 1 ==> !WellFormed(s)
    ensures !(IsSurrogate(s[0]) && FirstLength(s) == 1) ==> (WellFormed(s) <==> WellFormed(s[FirstLength(s)..]))
  {
    WellFormedCons(s);
    if |s| > 1 { WellFormedCons(s[1..]); }
    if |s| > 2 { WellFormedCons(s[2..]); }
  }

  /** The UTF-16 form of a string literal of the handlers' source text.
      Every such literal lies in the Basic Multilingual Plane, where a
      character is one code unit; a character beyond it would need a
      surrogate pair and is not expected here (it reads as U+FFFD). */
  function Js(s: string): (r: JsString)
    ensures |r| == |s|
  {
    seq(|s|, i requires 0 <= i < |s| => if s[i] as int < 0x1_0000 then s[i] as int else 0xFFFD)
  }

  /** A hexadecimal digit of either case, as the decoder reads them. */
  predicate IsHexDigit(u: CodeUnit) {
    0x30 <= u <= 0x39 || 0x41 <= u <= 0x46 || 0x61 <= u <= 0x66
  }

  function HexValue(u: CodeUnit): (d: int)
    requires IsHexDigit(u)
    ensures 0 <= d < 16
  {
    if u <= 0x39 then u - 0x30 else if u <= 0x46 then u - 0x41 + 10 else u - 0x61 + 10
  }

  /** ECMAScript ToBoolean on a string-or-undefined value: only `undefined`
      and "" are falsy. */
  predicate Truthy(v: Option<JsString>) {
    v.Some? && v.value != []
  }

  /** `a ?? b`: falls through only when `a` is null or undefined. */
  function Coalesce<T>(a: Option<T>, b: Option<T>): (r: Option<T>)
    ensures a.Some? ==> r == a
    ensures a.None? ==> r == b
  {
    if a.Some? then a else b
  }

  /** `a || b`: `a` when it is truthy, otherwise `b` (truthy or not). */
  function Or(a: Option<JsString>, b: Option<JsString>): (r: Option<JsString>)
    ensures Truthy(r) <==> Truthy(a) || Truthy(b)
    ensures Truthy(a) ==> r == a
  {
    if Truthy(a) then a else b
  }

  lemma WellFormedEmpty()
    ensures WellFormed([])
  {
  }

  /** Gluing two well-formed strings cannot create a lone surrogate, nor
      pair one up. */
  lemma WellFormedConcat(a: JsString, b: JsString)
    requires WellFormed(a) && WellFormed(b)
    ensures WellFormed(a + b)
  {
    var s := a + b;
    forall i | 0 <= i < |s| && IsHighSurrogate(s[i])
      ensures i + 1 < |s| && IsLowSurrogate(s[i + 1])
    {
      if i < |a| {
        assert s[i] == a[i];
      } else {
        assert s[i] == b[i - |a|];
      }
    }
    forall i | 0 <= i < |s| && IsLowSurrogate(s[i])
      ensures 0 < i && IsHighSurrogate(s[i - 1])
    {
      if i < |a| {
        assert s[i] == a[i];
      } else {
        assert s[i] == b[i - |a|];
      }
    }
  }

  /** A surrogate pair is the UTF-16 form of the code point it stands for. */
  lemma Utf16OfPair(hi: CodeUnit, lo: CodeUnit)
    requires IsHighSurrogate(hi) && IsLowSurrogate(lo)
    ensures Utf16(PairValue(hi, lo)) == [hi, lo]
  {
    var x := PairValue(hi, lo) - 0x1_0000;
    assert x == (hi - 0xD800) * 0x400 + (lo - 0xDC00);
    assert x / 0x400 == hi - 0xD800 && x % 0x400 == lo - 0xDC00;
  }

  lemma Utf16WellFormed(cp: Scalar)
    ensures WellFormed(Utf16(cp))
  {
  }

  /** Splitting a well-formed string at its first code point: either a
      non-surrogate unit or a surrogate pair comes off, leaving a well-formed
      rest; and conversely. */
  lemma WellFormedCons(s: JsString)
    requires |s| > 0
    ensures !IsSurrogate(s[0]) ==> (WellFormed(s) <==> WellFormed(s[1..]) && (|s| > 1 ==> !IsLowSurrogate(s[1])))
    ensures IsHighSurrogate(s[0]) && |s| > 1 && IsLowSurrogate(s[1]) ==>
              (WellFormed(s) <==> WellFormed(s[2..]) && (|s| > 2 ==> !IsLowSurrogate(s[2])))
    ensures IsLowSurrogate(s[0]) ==> !WellFormed(s)
    ensures IsHighSurrogate(s[0]) && (|s| == 1 || !IsLowSurrogate(s[1])) ==> !WellFormed(s)
  {
    if !IsSurrogate(s[0]) {
      var t := s[1..];
      if WellFormed(t) && (|s| > 1 ==> !IsLowSurrogate(s[1])) {
        forall i | 0 <= i < |s| && IsLowSurrogate(s[i])
          ensures 0 < i && IsHighSurrogate(s[i - 1])
        {
          assert i != 0 && i != 1;
          assert t[i - 1] == s[i];
        }
        forall i | 0 <= i < |s| && IsHighSurrogate(s[i])
          ensures i + 1 < |s| && IsLowSurrogate(s[i + 1])
        {
          assert t[i - 1] == s[i];
        }
      }
      if WellFormed(s) {
        forall i | 0 <= i < |t| && IsLowSurrogate(t[i])
          ensures 0 < i && IsHighSurrogate(t[i - 1])
        {
          assert s[i + 1] == t[i];
        }
        forall i | 0 <= i < |t| && IsHighSurrogate(t[i])
          ensures i + 1 < |t| && IsLowSurrogate(t[i + 1])
        {
          assert s[i + 1] == t[i];
        }
      }
    }
    if IsHighSurrogate(s[0]) && |s| > 1 && IsLowSurrogate(s[1]) {
      var t := s[2..];
      if WellFormed(t) && (|s| > 2 ==> !IsLowSurrogate(s[2])) {
        forall i | 0 <= i < |s| && IsLowSurrogate(s[i])
          ensures 0 < i && IsHighSurrogate(s[i - 1])
        {
          if i > 2 {
            assert t[i - 2] == s[i];
          }
        }
        forall i | 0 <= i < |s| && IsHighSurrogate(s[i])
          ensures i + 1 < |s| && IsLowSurrogate(s[i + 1])
        {
          if i >= 2 {
            assert t[i - 2] == s[i];
          }
        }
      }
      if WellFormed(s) {
        forall i | 0 <= i < |t| && IsLowSurrogate(t[i])
          ensures 0 < i && IsHighSurrogate(t[i - 1])
        {
          assert s[i + 2] == t[i];
        }
        forall i | 0 <= i < |t| && IsHighSurrogate(t[i])
          ensures i + 1 < |t| && IsLowSurrogate(t[i + 1])
        {
          assert s[i + 2] == t[i];
        }
      }
    }
  }
}

=== FILE: json.dfy ===
/** The JSON the metadata token carries: `JSON.stringify` of a flat object
    whose fields are strings (string escaping as in section 7 of RFC 8259,
    with the well-formed stringify rule that writes lone surrogates as
    `\uXXXX`), and `JSON.parse` restricted to such objects. */
module Json {
  import opened JsText

  const Quote: CodeUnit := 0x22
  const Backslash: CodeUnit := 0x5C
  const Comma: CodeUnit := 0x2C
  const OpenBrace: CodeUnit := 0x7B
  const CloseBrace: CodeUnit := 0x7D

  /** A field of a flat object: its name and its string value. */
  type Member = (JsString, JsString)

  /** Insignificant whitespace: space, tab, line feed, carriage return. */
  predicate IsWhitespace(u: CodeUnit) {
    u == 0x20 || u == 0x09 || u == 0x0A || u == 0x0D
  }

  /** A lower-case hexadecimal digit, as UnicodeEscape writes them. */
  function LowerHex(d: int): (u: CodeUnit)
    requires 0 <= d < 16
    ensures IsHexDigit(u) && HexValue(u) == d
  {
    if d < 10 then 0x30 + d else 0x61 + (d - 10)
  }

  /** `\u` and four lower-case hexadecimal digits. */
  function UnicodeEscape(u: CodeUnit): JsString {
    [Backslash, 0x75, LowerHex(u / 0x1000), LowerHex(u / 0x100 % 16), LowerHex(u / 16 % 16), LowerHex(u % 16)]
  }

  /** The short escape letter for a unit, or 0 when it has none. */
  function ShortEscape(u: CodeUnit): CodeUnit {
    if u == 0x08 then 0x62        // \b
    else if u == 0x09 then 0x74   // \t
    else if u == 0x0A then 0x6E   // \n
    else if u == 0x0C then 0x66   // \f
    else if u == 0x0D then 0x72   // \r
    else if u == Quote then Quote
    else if u == Backslash then Backslash
    else 0
  }

  /** How QuoteJSONString writes a unit that is not half of a surrogate
      pair: a short escape, `\uXXXX` for other control characters and for a
      lone surrogate, otherwise the unit itself. */
  function EscapeUnit(u: CodeUnit): JsString {
    if ShortEscape(u) != 0 then [Backslash, ShortEscape(u)]
    else if u < 0x20 || IsSurrogate(u) then UnicodeEscape(u)
    else [u]
  }

  /** The body of QuoteJSONString: code point by code point, surrogate
      pairs copied, everything else through EscapeUnit. */
  function EscapeString(s: JsString): JsString
    decreases |s|
  {
    if s == [] then []
    else if FirstLength(s) == 2 then [s[0], s[1]] + EscapeString(s[2..])
    else EscapeUnit(s[0]) + EscapeString(s[1..])
  }

  /** Escaping leaves no lone surrogate: pairs are copied whole and a lone
      surrogate becomes `\uXXXX`. */
  lemma {:induction false} EscapedWellFormed(s: JsString)
    ensures WellFormed(EscapeString(s))
    decreases |s|
  {
    if s == [] {
      WellFormedEmpty();
    } else if FirstLength(s) == 2 {
      EscapedWellFormed(s[2..]);
      PairThenWellFormed(s[0], s[1], EscapeString(s[2..]));
    } else {
      EscapedWellFormed(s[1..]);
      EscapedUnitThenWellFormed(s[0], EscapeString(s[1..]));
    }
  }

  lemma PairThenWellFormed(hi: CodeUnit, lo: CodeUnit, rest: JsString)
    requires IsHighSurrogate(hi) && IsLowSurrogate(lo) && WellFormed(rest)
    ensures WellFormed([hi, lo] + rest)
  {
    Utf16OfPair(hi, lo);
    Utf16WellFormed(PairValue(hi, lo));
    WellFormedConcat([hi, lo], rest);
  }

  lemma EscapedUnitThenWellFormed(u: CodeUnit, rest: JsString)
    requires WellFormed(rest)
    ensures WellFormed(EscapeUnit(u) + rest)
  {
    assert WellFormed(EscapeUnit(u));
    WellFormedConcat(EscapeUnit(u), rest);
  }

  /** `JSON.stringify` of a string. */
  function QuoteString(s: JsString): JsString {
    [Quote] + EscapeString(s) + [Quote]
  }

  function PrintMember(m: Member): JsString {
    QuoteString(m.0) + [Colon] + QuoteString(m.1)
  }

  function PrintMembers(ms: seq<Member>): JsString {
    if ms == [] then []
    else if |ms| == 1 then PrintMember(ms[0])
    else PrintMember(ms[0]) + [Comma] + PrintMembers(ms[1..])
  }

  /** `JSON.stringify` of an object whose own fields, in order, are `ms`:
      no whitespace anywhere. */
  function PrintObject(ms: seq<Member>): JsString {
    [OpenBrace] + PrintMembers(ms) + [CloseBrace]
  }

  /** The text after any leading whitespace. */
  function SkipWhitespace(t: JsString): (r: JsString)
    ensures |r| <= |t|
    ensures r == [] || !IsWhitespace(r[0])
  {
    if t != [] && IsWhitespace(t[0]) then SkipWhitespace(t[1..]) else t
  }

  /** The unit an escape at the start of `t` stands for, and its length. */
  function ParseEscape(t: JsString): (r: Option<(CodeUnit, nat)>)
    requires |t| > 0 && t[0] == Backslash
    ensures r.Some? ==> 2 <= r.value.1 <= |t|
  {
    if |t| < 2 then None
    else if t[1] == Quote || t[1] == Backslash || t[1] == 0x2F then Some((t[1], 2))
    else if t[1] == 0x62 then Some((0x08, 2))
    else if t[1] == 0x74 then Some((0x09, 2))
    else if t[1] == 0x6E then Some((0x0A, 2))
    else if t[1] == 0x66 then Some((0x0C, 2))
    else if t[1] == 0x72 then Some((0x0D, 2))
    else if t[1] == 0x75 && |t| >= 6 && IsHexDigit(t[2]) && IsHexDigit(t[3]) && IsHexDigit(t[4]) && IsHexDigit(t[5]) then
      Some((HexValue(t[2]) * 0x1000 + HexValue(t[3]) * 0x100 + HexValue(t[4]) * 16 + HexValue(t[5]), 6))
    else None
  }

  /** The characters of a string literal after its opening quote: the
      value, and the text after the closing quote. */
  function ParseStringBody(t: JsString): (r: Option<(JsString, JsString)>)
    ensures r.Some? ==> |r.value.1| < |t|
    decreases |t|
  {
    if t == [] then None
    else if t[0] == Quote then Some(([], t[1..]))
    else if t[0] == Backslash then
      match ParseEscape(t)
      case None => None
      case Some((u, n)) => PrependUnit(u, ParseStringBody(t[n..]))
    else if t[0] < 0x20 then None
    else PrependUnit(t[0], ParseStringBody(t[1..]))
  }

  /** A parsed unit in front of the rest of a string literal's value. */
  function PrependUnit(u: CodeUnit, r: Option<(JsString, JsString)>): Option<(JsString, JsString)> {
    match r
    case None => None
    case Some((v, rest)) => Some(([u] + v, rest))
  }

  /** A string literal at the start of `t`: its value and what follows. */
  function ParseString(t: JsString): (r: Option<(JsString, JsString)>)
    ensures r.Some? ==> |r.value.1| < |t|
  {
    if t == [] || t[0] != Quote then None else ParseStringBody(t[1..])
  }

  /** One `"name": "value"` member at the start of `t` and the text after
      it, leading whitespace skipped. */
  function ParseMember(t: JsString): (r: Option<(Member, JsString)>)
    ensures r.Some? ==> |r.value.1| < |t|
  {
    match ParseString(t)
    case None => None
    case Some((key, t1)) =>
      var t2 := SkipWhitespace(t1);
      if t2 == [] || t2[0] != Colon then None
      else
        match ParseString(SkipWhitespace(t2[1..]))
        case None => None
        case Some((value, t3)) => Some(((key, value), SkipWhitespace(t3)))
  }

  /** The members of an object from its first member to the end of the text,
      where every value must be a string. */
  function ParseMembers(t: JsString): Option<seq<Member>>
    decreases |t|
  {
    match ParseMember(t)
    case None => None
    case Some((m, t1)) =>
      if t1 == [] then None
      else if t1[0] == Comma then
        match ParseMembers(SkipWhitespace(t1[1..]))
        case None => None
        case Some(ms) => Some([m] + ms)
      else if t1[0] == CloseBrace && SkipWhitespace(t1[1..]) == [] then Some([m])
      else None
  }

  /** `JSON.parse(text)` when `text` is an object whose fields are all
      strings: its members in order, duplicates included. */
  function ParseObject(text: JsString): Option<seq<Member>> {
    var t := SkipWhitespace(text);
    if t == [] || t[0] != OpenBrace then None
    else
      var t1 := SkipWhitespace(t[1..]);
      if t1 != [] && t1[0] == CloseBrace then
        if SkipWhitespace(t1[1..]) == [] then Some([]) else None
      else ParseMembers(t1)
  }

  /** The four hexadecimal digits of a unit give back the unit. */
  lemma HexDigitsOf(u: CodeUnit)
    ensures (u / 0x1000) * 0x1000 + (u / 0x100 % 16) * 0x100 + (u / 16 % 16) * 16 + u % 16 == u
  {
    var a, b, c, d := u / 0x1000, u / 0x100 % 16, u / 16 % 16, u % 16;
    assert u / 16 == (u / 0x100) * 16 + c;
    assert u / 0x100 == a * 16 + b;
  }

  /** Reading back one unit written by EscapeUnit. */
  lemma ParseEscapedUnit(u: CodeUnit, x: JsString)
    ensures ParseStringBody(EscapeUnit(u) + x) == PrependUnit(u, ParseStringBody(x))
  {
    var e := EscapeUnit(u);
    var t := e + x;
    assert t[..|e|] == e;
    assert t[|e|..] == x;
    if ShortEscape(u) == 0 && (u < 0x20 || IsSurrogate(u)) {
      HexDigitsOf(u);
      assert ParseEscape(t) == Some((u, 6));
    }
  }

  /** A unit that needs no escape is read as itself. */
  lemma ParsePlainUnit(u: CodeUnit, x: JsString)
    requires u != Quote && u != Backslash && u >= 0x20
    ensures ParseStringBody([u] + x) == PrependUnit(u, ParseStringBody(x))
  {
    assert ([u] + x)[1..] == x;
  }

  /** Reading back a surrogate pair, copied as it stands. */
  lemma ParseSurrogatePair(a: CodeUnit, b: CodeUnit, s: JsString, x: JsString, rest: JsString)
    requires IsSurrogate(a) && IsSurrogate(b)
    requires ParseStringBody(x) == Some((s, rest))
    ensures ParseStringBody([a, b] + x) == Some(([a, b] + s, rest))
  {
    assert [a, b] + x == [a] + ([b] + x);
    ParsePlainUnit(a, [b] + x);
    ParsePlainUnit(b, x);
    assert [a] + ([b] + s) == [a, b] + s;
  }

  /** The step for a surrogate pair at the front of the string. */
  lemma ParseEscapedPairStep(s: JsString, rest: JsString)
    requires |s| > 0 && FirstLength(s) == 2
    requires ParseStringBody(EscapeString(s[2..]) + [Quote] + rest) == Some((s[2..], rest))
    ensures ParseStringBody(EscapeString(s) + [Quote] + rest) == Some((s, rest))
  {
    var x := EscapeString(s[2..]) + [Quote] + rest;
    assert EscapeString(s) + [Quote] + rest == [s[0], s[1]] + x;
    ParseSurrogatePair(s[0], s[1], s[2..], x, rest);
    assert [s[0], s[1]] + s[2..] == s;
  }

  /** The step for any other unit at the front of the string. */
  lemma ParseEscapedUnitStep(s: JsString, rest: JsString)
    requires |s| > 0 && FirstLength(s) == 1
    requires ParseStringBody(EscapeString(s[1..]) + [Quote] + rest) == Some((s[1..], rest))
    ensures ParseStringBody(EscapeString(s) + [Quote] + rest) == Some((s, rest))
  {
    var x := EscapeString(s[1..]) + [Quote] + rest;
    assert EscapeString(s) + [Quote] + rest == EscapeUnit(s[0]) + x;
    ParseEscapedUnit(s[0], x);
    assert [s[0]] + s[1..] == s;
  }

  /** Reading back a string body written by EscapeString, up to the closing
      quote. */
  lemma {:induction false} ParseEscapedString(s: JsString, rest: JsString)
    ensures ParseStringBody(EscapeString(s) + [Quote] + rest) == Some((s, rest))
    decreases |s|
  {
    if s == [] {
      assert ([] + [Quote] + rest)[1..] == rest;
    } else if FirstLength(s) == 2 {
      ParseEscapedString(s[2..], rest);
      ParseEscapedPairStep(s, rest);
    } else {
      ParseEscapedString(s[1..], rest);
      ParseEscapedUnitStep(s, rest);
    }
  }

  /** Reading back a quoted string, whatever follows it. */
  lemma ParseQuoted(s: JsString, rest: JsString)
    ensures ParseString(QuoteString(s) + rest) == Some((s, rest))
  {
    var t := QuoteString(s) + rest;
    assert t[1..] == EscapeString(s) + [Quote] + rest;
    ParseEscapedString(s, rest);
  }

  /** A member with no whitespace around its colon. */
  lemma ParseMemberOf(t: JsString, key: JsString, t1: JsString, value: JsString, x: JsString)
    requires ParseString(t) == Some((key, t1))
    requires |t1| > 0 && t1[0] == Colon
    requires ParseString(t1[1..]) == Some((value, x))
    requires |x| > 0 && !IsWhitespace(x[0])
    ensures ParseMember(t) == Some(((key, value), x))
  {
    assert SkipWhitespace(t1) == t1;
    assert |t1[1..]| > 0 && t1[1..][0] == Quote;
    assert SkipWhitespace(t1[1..]) == t1[1..];
    assert SkipWhitespace(x) == x;
  }

  /** Reading back one printed member, whatever non-blank text follows. */
  lemma ParsePrintedMember(m: Member, x: JsString)
    requires |x| > 0 && !IsWhitespace(x[0])
    ensures ParseMember(PrintMember(m) + x) == Some((m, x))
  {
    var y := [Colon] + (QuoteString(m.1) + x);
    assert PrintMember(m) + x == QuoteString(m.0) + y;
    ParseQuoted(m.0, y);
    assert y[1..] == QuoteString(m.1) + x;
    ParseQuoted(m.1, x);
    ParseMemberOf(PrintMember(m) + x, m.0, y, m.1, x);
  }

  /** The last member before the closing brace. */
  lemma ParseLastMember(m: Member)
    ensures ParseMembers(PrintMembers([m]) + [CloseBrace]) == Some([m])
  {
    var x := [CloseBrace];
    ParsePrintedMember(m, x);
    assert x[1..] == [];
  }

  /** PrintMembers of a longer list: the first member, a comma, the rest. */
  lemma PrintMembersCons(ms: seq<Member>)
    requires |ms| > 1
    ensures PrintMembers(ms) + [CloseBrace] == PrintMember(ms[0]) + ([Comma] + (PrintMembers(ms[1..]) + [CloseBrace]))
  {
    var a, b := PrintMember(ms[0]), PrintMembers(ms[1..]);
    assert PrintMembers(ms) == a + [Comma] + b;
    SeqAssoc(a, [Comma], b, [CloseBrace]);
  }

  lemma SeqAssoc(a: JsString, b: JsString, c: JsString, d: JsString)
    ensures a + b + c + d == a + (b + (c + d))
  {
  }

  /** Printed members start with the quote of the first name. */
  lemma PrintedMembersStartQuoted(ms: seq<Member>)
    requires |ms| > 0
    ensures |PrintMembers(ms)| > 0 && PrintMembers(ms)[0] == Quote
  {
    var q := QuoteString(ms[0].0);
    assert q[0] == Quote;
    assert PrintMember(ms[0])[0] == Quote;
  }

  /** After a comma, text that starts with a quote is read as it stands. */
  lemma AfterComma(rest: JsString)
    requires |rest| > 0 && rest[0] == Quote
    ensures SkipWhitespace(([Comma] + rest)[1..]) == rest
  {
    assert ([Comma] + rest)[1..] == rest;
  }

  /** A member, a comma, and the members after it. */
  lemma ParseMembersAfterComma(t: JsString, m: Member, x: JsString)
    requires ParseMember(t) == Some((m, x))
    requires |x| > 0 && x[0] == Comma
    ensures ParseMembers(t)
         == (match ParseMembers(SkipWhitespace(x[1..])) case None => None case Some(ps) => Some([m] + ps))
  {
  }

  /** A member followed by a comma and further members that read back. */
  lemma ParseMemberThenMore(m: Member, rest: JsString, ps: seq<Member>)
    requires |rest| > 0 && rest[0] == Quote
    requires ParseMembers(rest) == Some(ps)
    ensures ParseMembers(PrintMember(m) + ([Comma] + rest)) == Some([m] + ps)
  {
    var x := [Comma] + rest;
    AfterComma(rest);
    ParsePrintedMember(m, x);
    ParseMembersAfterComma(PrintMember(m) + x, m, x);
  }

  /** Reading back the members written by PrintMembers, up to the closing
      brace. */
  lemma {:induction false} ParsePrintedMembers(ms: seq<Member>)
    requires |ms| > 0
    ensures ParseMembers(PrintMembers(ms) + [CloseBrace]) == Some(ms)
    decreases |ms|
  {
    if |ms| == 1 {
      ParseLastMember(ms[0]);
      assert [ms[0]] == ms;
    } else {
      var rest := PrintMembers(ms[1..]) + [CloseBrace];
      assert ParseMembers(PrintMember(ms[0]) + ([Comma] + rest)) == Some([ms[0]] + ms[1..]) by {
        ParsePrintedMembers(ms[1..]);
        PrintedMembersStartQuoted(ms[1..]);
        ParseMemberThenMore(ms[0], rest, ms[1..]);
      }
      PrintMembersCons(ms);
      assert [ms[0]] + ms[1..] == ms;
    }
  }

  /** Round trip: JSON.parse(JSON.stringify(o)) gives back the members of a
      flat object of strings, in order. */
  lemma ParsePrintedObject(ms: seq<Member>)
    ensures ParseObject(PrintObject(ms)) == Some(ms)
  {
    var text := PrintObject(ms);
    var body := PrintMembers(ms) + [CloseBrace];
    assert text == [OpenBrace] + body;
    assert text[0] == OpenBrace && text[1..] == body;
    assert SkipWhitespace(text) == text;
    if ms == [] {
      assert body == [CloseBrace];
      assert body[1..] == [];
      assert SkipWhitespace(body) == body;
      assert SkipWhitespace(body[1..]) == [];
    } else {
      var first := QuoteString(ms[0].0);
      assert body[0] == first[0] == Quote;
      assert SkipWhitespace(body) == body;
      ParsePrintedMembers(ms);
      assert ParseObject(text) == ParseMembers(body);
    }
  }

  /** A quoted string never holds a lone surrogate: EscapeString writes
      every lone surrogate as `\uXXXX`. */
  lemma QuotedWellFormed(s: JsString)
    ensures WellFormed(QuoteString(s))
  {
    EscapedWellFormed(s);
    WellFormedConcat([Quote], EscapeString(s));
    WellFormedConcat([Quote] + EscapeString(s), [Quote]);
  }

  /** Printed members never hold a lone surrogate. */
  lemma {:induction false} PrintedMembersWellFormed(ms: seq<Member>)
    ensures WellFormed(PrintMembers(ms))
    decreases |ms|
  {
    if ms != [] {
      var m := ms[0];
      QuotedWellFormed(m.0);
      QuotedWellFormed(m.1);
      WellFormedConcat(QuoteString(m.0), [Colon]);
      WellFormedConcat(QuoteString(m.0) + [Colon], QuoteString(m.1));
      if |ms| > 1 {
        PrintedMembersWellFormed(ms[1..]);
        WellFormedConcat(PrintMember(m), [Comma]);
        WellFormedConcat(PrintMember(m) + [Comma], PrintMembers(ms[1..]));
      }
    }
  }

  /** JSON.stringify of a flat object never holds a lone surrogate, so
      percent-encoding it cannot throw. */
  lemma PrintedObjectWellFormed(ms: seq<Member>)
    ensures WellFormed(PrintObject(ms))
  {
    PrintedMembersWellFormed(ms);
    WellFormedConcat([OpenBrace], PrintMembers(ms));
    WellFormedConcat([OpenBrace] + PrintMembers(ms), [CloseBrace]);
  }
}

=== FILE: paypal.dfy ===
/** The shared helpers of the Netlify functions (netlify/functions/_lib/paypal.mjs):
    reading settings, choosing the PayPal host, deriving the site origin,
    the client-credentials token request, and the shape of responses. */
module PayPal {
  import opened JsText
  import opened Utf8
  import Base64

  /** The two places settings come from: the Netlify runtime's `env.get`
      and `process.env`. A key that is not in a map reads as undefined; a
      runtime without Netlify globals is an empty first map. */
  datatype Env = Env(netlify: map<string, JsString>, process: map<string, JsString>)

  /** A lookup that reads a missing key as undefined. */
  function Get(m: map<string, JsString>, key: string): (r: Option<JsString>)
    ensures r.Some? <==> key in m
    ensures r.Some? ==> r.value == m[key]
  {
    if key in m then Some(m[key]) else None
  }

  /** `getEnv`: the Netlify value unless it is undefined, so an empty
      Netlify value hides a set process value. */
  function GetEnv(env: Env, key: string): (r: Option<JsString>)
    ensures key in env.netlify ==> r == Some(env.netlify[key])
    ensures key !in env.netlify ==> r == Get(env.process, key)
  {
    Coalesce(Get(env.netlify, key), Get(env.process, key))
  }

  /** `toLowerCase` restricted to ASCII: A-Z become a-z, every other unit is
      kept. */
  function ToLowerAscii(s: JsString): (r: JsString)
    ensures |r| == |s|
    ensures forall i | 0 <= i < |s| :: r[i] == if 0x41 <= s[i] <= 0x5A then s[i] + 0x20 else s[i]
  {
    if s == [] then [] else [if 0x41 <= s[0] <= 0x5A then s[0] + 0x20 else s[0]] + ToLowerAscii(s[1..])
  }

  function LiveHost(): JsString { Js("https://api-m.paypal.com") }
  function SandboxHost(): JsString { Js("https://api-m.sandbox.paypal.com") }
  function Live(): JsString { Js("live") }
  function Sandbox(): JsString { Js("sandbox") }

  datatype Config = Config(env: JsString, clientId: Option<JsString>, secret: Option<JsString>, baseUrl: JsString)

  lemma SandboxIsLowerCase()
    ensures ToLowerAscii(Sandbox()) == Sandbox()
  {
    var units: JsString := [0x73, 0x61, 0x6E, 0x64, 0x62, 0x6F, 0x78];
    assert Sandbox() == units;
    var r := ToLowerAscii(units);
    assert forall i | 0 <= i < |r| :: r[i] == units[i];
  }

  lemma HostsDiffer()
    ensures LiveHost() != SandboxHost()
  {
    assert |LiveHost()| != |SandboxHost()|;
  }

  /** `getPayPalConfig`: PAYPAL_ENV lower-cased, "sandbox" when unset or
      empty; the live host for "live" and the sandbox host for anything
      else; the credentials passed through as read. */
  function GetPayPalConfig(env: Env): (c: Config)
    ensures c.clientId == GetEnv(env, "PAYPAL_CLIENT_ID") && c.secret == GetEnv(env, "PAYPAL_SECRET")
    ensures !Truthy(GetEnv(env, "PAYPAL_ENV")) ==> c.env == Sandbox()
    ensures Truthy(GetEnv(env, "PAYPAL_ENV")) ==> c.env == ToLowerAscii(GetEnv(env, "PAYPAL_ENV").value)
    ensures c.baseUrl == LiveHost() <==> c.env == Live()
    ensures c.baseUrl == LiveHost() || c.baseUrl == SandboxHost()
  {
    var name := ToLowerAscii(Or(GetEnv(env, "PAYPAL_ENV"), Some(Sandbox())).value);
    SandboxIsLowerCase();
    HostsDiffer();
    Config(name, GetEnv(env, "PAYPAL_CLIENT_ID"), GetEnv(env, "PAYPAL_SECRET"),
           if name == Live() then LiveHost() else SandboxHost())
  }

  /** A setting that names the live environment in any mix of cases. */
  predicate NamesLive(v: JsString) {
    && |v| == 4
    && (v[0] == 0x6C || v[0] == 0x4C) && (v[1] == 0x69 || v[1] == 0x49)
    && (v[2] == 0x76 || v[2] == 0x56) && (v[3] == 0x65 || v[3] == 0x45)
  }

  /** The live host is chosen exactly when PAYPAL_ENV is "live" up to case;
      unset, empty and every other value choose the sandbox. */
  lemma LiveExactlyWhenNamed(env: Env)
    ensures GetPayPalConfig(env).baseUrl == LiveHost()
        <==> Truthy(GetEnv(env, "PAYPAL_ENV")) && NamesLive(GetEnv(env, "PAYPAL_ENV").value)
  {
    var c := GetPayPalConfig(env);
    assert Sandbox() != Live() by { assert |Sandbox()| != |Live()|; }
    if Truthy(GetEnv(env, "PAYPAL_ENV")) {
      var v := GetEnv(env, "PAYPAL_ENV").value;
      if NamesLive(v) {
        assert ToLowerAscii(v) == Live();
      }
    }
  }

  /** The first of Netlify URL, Netlify DEPLOY_PRIME_URL, process URL and
      process DEPLOY_PRIME_URL that is not undefined. */
  function ExplicitBase(env: Env): (r: Option<JsString>)
    ensures "URL" in env.netlify ==> r == Some(env.netlify["URL"])
    ensures "URL" !in env.netlify && "DEPLOY_PRIME_URL" in env.netlify ==> r == Some(env.netlify["DEPLOY_PRIME_URL"])
    ensures "URL" !in env.netlify && "DEPLOY_PRIME_URL" !in env.netlify ==>
              r == Coalesce(Get(env.process, "URL"), Get(env.process, "DEPLOY_PRIME_URL"))
  {
    Coalesce(Get(env.netlify, "URL"), Coalesce(Get(env.netlify, "DEPLOY_PRIME_URL"),
      Coalesce(Get(env.process, "URL"), Get(env.process, "DEPLOY_PRIME_URL"))))
  }

  const Slash: CodeUnit := 0x2F

  /** `replace(/\/$/, "")`: one trailing slash removed, if there is one. */
  function StripTrailingSlash(s: JsString): (r: JsString)
    ensures s == r || s == r + [Slash]
    ensures |s| > 0 && s[|s| - 1] == Slash <==> s == r + [Slash]
  {
    if |s| > 0 && s[|s| - 1] == Slash then s[..|s| - 1] else s
  }

  /** `getRequestBaseUrl`: a truthy explicit base without its trailing
      slash, otherwise `protocol//host` of the request URL (the protocol
      keeps its colon, as `URL.protocol` does). */
  function RequestBaseUrl(env: Env, protocol: JsString, host: JsString): (r: JsString)
    ensures Truthy(ExplicitBase(env)) ==>
              var x := ExplicitBase(env).value;
              (x == r || x == r + [Slash]) && (x[|x| - 1] == Slash <==> x == r + [Slash])
    ensures !Truthy(ExplicitBase(env)) ==> r == protocol + [Slash, Slash] + host
  {
    var explicit := ExplicitBase(env);
    if Truthy(explicit) then StripTrailingSlash(explicit.value) else protocol + Js("//") + host
  }

  /** A slash is stripped once only: a base ending in two slashes keeps one. */
  lemma StripsOneSlashOnly(s: JsString)
    ensures StripTrailingSlash(s + [Slash, Slash]) == s + [Slash]
  {
    assert (s + [Slash, Slash])[..|s| + 1] == s + [Slash];
  }

  /** The Basic credentials of section 2 of RFC 7617: the UTF-8 octets of
      `clientId:secret` in Base64, after "Basic ". */
  function BasicAuthorization(clientId: JsString, secret: JsString): (r: JsString)
    ensures |r| >= 6 && r[..6] == Js("Basic ")
    ensures IsAscii(r[6..])
  {
    var encoded := Base64.Encode(EncodeString(clientId + [Colon] + secret));
    Base64.EncodeIsAscii(EncodeString(clientId + [Colon] + secret));
    assert (Js("Basic ") + encoded)[6..] == encoded;
    Js("Basic ") + encoded
  }

  /** A server reading the credentials back gets the UTF-8 octets of the
      client id, a colon, and those of the secret; when the id has no colon
      the first colon octet is the separator, as RFC 7617 requires. */
  lemma BasicCredentialsReadBack(clientId: JsString, secret: JsString)
    ensures Base64.Decode(BasicAuthorization(clientId, secret)[6..])
         == Some(EncodeString(clientId) + [Colon] + EncodeString(secret))
    ensures Colon !in clientId ==> Colon !in EncodeString(clientId)
  {
    var octets := EncodeString(clientId + [Colon] + secret);
    EncodeAroundAscii(clientId, Colon, secret);
    Base64.RoundTrip(octets);
    assert BasicAuthorization(clientId, secret)[6..] == Base64.Encode(octets);
    if Colon !in clientId {
      AsciiOctetOnlyFromUnit(clientId, Colon);
    }
  }

  /** The client-credentials grant of section 4.4 of RFC 6749, as
      `getPayPalAccessToken` sends it. */
  datatype TokenRequest = TokenRequest(url: JsString, authorization: JsString, contentType: JsString, body: JsString)

  function AccessTokenRequest(baseUrl: JsString, clientId: JsString, secret: JsString): TokenRequest {
    TokenRequest(baseUrl + Js("/v1/oauth2/token"), BasicAuthorization(clientId, secret),
                 Js("application/x-www-form-urlencoded"), Js("grant_type=client_credentials"))
  }

  /** The token request goes to the base URL's `/v1/oauth2/token`, with
      credentials a server decodes back to the client id and secret, as a
      form-encoded client-credentials grant. */
  lemma TokenRequestFields(baseUrl: JsString, clientId: JsString, secret: JsString)
    ensures var q := AccessTokenRequest(baseUrl, clientId, secret);
            && |q.url| >= |baseUrl| && q.url[..|baseUrl|] == baseUrl && q.url[|baseUrl|..] == Js("/v1/oauth2/token")
            && |q.authorization| >= 6 && q.authorization[..6] == Js("Basic ")
            && Base64.Decode(q.authorization[6..]) == Some(EncodeString(clientId) + [Colon] + EncodeString(secret))
            && q.contentType == Js("application/x-www-form-urlencoded")
            && q.body == Js("grant_type=client_credentials")
  {
    BasicCredentialsReadBack(clientId, secret);
    var url := baseUrl + Js("/v1/oauth2/token");
    assert url[..|baseUrl|] == baseUrl && url[|baseUrl|..] == Js("/v1/oauth2/token");
  }

  /** What the token endpoint gives back: an access token, or a failure
      (a non-ok status, which getPayPalAccessToken turns into a throw, or a
      thrown fetch) that the caller's catch sees. */
  datatype TokenResult = Granted(accessToken: JsString) | TokenFailed

  /** `textResponse` and `jsonResponse`, as status and content. */
  datatype Response =
    | Text(status: int, text: JsString)
    | Object(status: int, fields: seq<(JsString, JsString)>)

  /** The only method either handler serves. */
  function Post(): JsString { Js("POST") }

  /** The answer of both handlers' catch blocks. */
  function ServerError(): Response { Text(500, Js("Server error")) }
}

=== FILE: uri.dfy ===
/** `encodeURIComponent` and `decodeURIComponent` (the Encode and Decode
    abstract operations of ECMA-262 section 19.2.6, URI handling functions):
    UTF-8 (RFC 3629) octets written as `%XX` escapes (section 2.1 of
    RFC 3986). A thrown URIError is `None`. */
module Uri {
  import opened JsText
  import opened Utf8

  const Percent: CodeUnit := 0x25

  /** The units encodeURIComponent leaves alone: ASCII letters and digits and
      the marks - _ . ! ~ * ' ( ) */
  predicate IsUnreserved(u: CodeUnit) {
    || 0x41 <= u <= 0x5A || 0x61 <= u <= 0x7A || 0x30 <= u <= 0x39
    || u == 0x2D || u == 0x5F || u == 0x2E || u == 0x21 || u == 0x7E
    || u == 0x2A || u == 0x27 || u == 0x28 || u == 0x29
  }

  /** An upper-case hexadecimal digit, as the encoder writes them. */
  function HexDigit(d: int): (u: CodeUnit)
    requires 0 <= d < 16
    ensures IsUnreserved(u) && IsHexDigit(u) && HexValue(u) == d
  {
    if d < 10 then 0x30 + d else 0x41 + (d - 10)
  }

  /** Text the encoder can produce: unreserved units and `%` only. */
  predicate IsEncoded(t: JsString) {
    forall i | 0 <= i < |t| :: IsUnreserved(t[i]) || t[i] == Percent
  }

  /** Encoded text is ASCII. */
  lemma EncodedIsAscii(t: JsString)
    requires IsEncoded(t)
    ensures IsAscii(t)
  {
  }

  /** Each octet as `%` and two upper-case hexadecimal digits. */
  function EscapeOctets(octets: seq<Byte>): (r: JsString)
    ensures |r| == 3 * |octets|
    ensures forall i | 0 <= i < |r| :: IsUnreserved(r[i]) || r[i] == Percent
  {
    if octets == [] then []
    else [Percent, HexDigit(octets[0] / 16), HexDigit(octets[0] % 16)] + EscapeOctets(octets[1..])
  }

  /** Encodes the first code point of `s`: the output and how many units of
      `s` it used; `None` for a lone surrogate. */
  function EncodeChunk(s: JsString): (r: Option<(JsString, nat)>)
    requires |s| > 0
    ensures r.Some? ==> r.value.1 == FirstLength(s)
    ensures r.Some? ==> forall i | 0 <= i < |r.value.0| :: IsUnreserved(r.value.0[i]) || r.value.0[i] == Percent
    ensures r.None? <==> IsSurrogate(s[0]) && FirstLength(s) == 1
  {
    if IsUnreserved(s[0]) then Some(([s[0]], 1))
    else if IsSurrogate(s[0]) && FirstLength(s) == 1 then None
    else Some((EscapeOctets(EncodeScalar(FirstScalar(s))), FirstLength(s)))
  }

  /** `encodeURIComponent(s)`. */
  function EncodeUriComponent(s: JsString): (r: Option<JsString>)
    ensures r.Some? <==> WellFormed(s)
    ensures r.Some? ==> IsEncoded(r.value)
    ensures r.Some? ==> |r.value| >= |s|
    decreases |s|
  {
    if s == [] then Some([])
    else
      WellFormedFirst(s);
      match EncodeChunk(s)
      case None => None
      case Some((out, k)) =>
        match EncodeUriComponent(s[k..])
        case None => None
        case Some(rest) => Some(out + rest)
  }

  /** The octet written as `%XX` at the start of `t`, if there is one. */
  function ReadOctet(t: JsString): Option<Byte> {
    if |t| < 3 || t[0] != Percent || !IsHexDigit(t[1]) || !IsHexDigit(t[2]) then None
    else Some(HexValue(t[1]) * 16 + HexValue(t[2]))
  }

  /** `n` consecutive `%XX` escapes at the start of `t`. */
  function ReadOctets(t: JsString, n: nat): (r: Option<seq<Byte>>)
    ensures r.Some? ==> |r.value| == n && 3 * n <= |t|
    ensures r.Some? ==> forall p | 0 <= p < 3 * n && t[p] == Percent :: p + 2 < 3 * n
  {
    if n == 0 then Some([])
    else
      match ReadOctet(t)
      case None => None
      case Some(b) =>
        match ReadOctets(t[3..], n - 1)
        case None => None
        case Some(bs) =>
          assert forall p | 3 <= p < 3 * n :: t[p] == t[3..][p - 3];
          Some([b] + bs)
  }

  /** Decodes the first unit or escape sequence of `t`: the output and how
      many units of `t` it used; `None` where Decode throws. */
  function DecodeChunk(t: JsString): (r: Option<(JsString, nat)>)
    requires |t| > 0
    ensures r.Some? ==> 1 <= r.value.1 <= |t|
    ensures r.Some? ==> forall p | 0 <= p < r.value.1 && t[p] == Percent :: p + 2 < r.value.1
  {
    if t[0] != Percent then Some(([t[0]], 1))
    else
      match ReadOctet(t)
      case None => None
      case Some(lead) =>
        if lead < 0x80 then Some(([lead], 3))
        else
          var n := SequenceLength(lead);
          if n == 0 || |t| < 3 * n then None
          else
            match ReadOctets(t, n)
            case None => None
            case Some(octets) =>
              match DecodeScalar(octets)
              case None => None
              case Some(cp) => Some((Utf16(cp), 3 * n))
  }

  /** `decodeURIComponent(t)`. */
  function DecodeUriComponent(t: JsString): (r: Option<JsString>)
    decreases |t|
  {
    if t == [] then Some([])
    else
      match DecodeChunk(t)
      case None => None
      case Some((out, k)) =>
        match DecodeUriComponent(t[k..])
        case None => None
        case Some(rest) => Some(out + rest)
  }

  /** `%XX` written for an octet reads back as that octet. */
  lemma ReadOctetOf(t: JsString, b: Byte)
    requires |t| >= 3 && t[0] == Percent && t[1] == HexDigit(b / 16) && t[2] == HexDigit(b % 16)
    ensures ReadOctet(t) == Some(b)
  {
  }

  /** The first escape written by EscapeOctets reads back as its octet. */
  lemma ReadEscaped(octets: seq<Byte>, rest: JsString)
    requires |octets| > 0
    ensures ReadOctet(EscapeOctets(octets) + rest) == Some(octets[0])
  {
    var b := octets[0];
    var t := EscapeOctets(octets) + rest;
    assert t[..3] == [Percent, HexDigit(b / 16), HexDigit(b % 16)];
    ReadOctetOf(t, b);
  }

  /** All escapes written by EscapeOctets read back as their octets. */
  lemma {:induction false} ReadOctetsEscaped(octets: seq<Byte>, rest: JsString)
    ensures ReadOctets(EscapeOctets(octets) + rest, |octets|) == Some(octets)
    decreases |octets|
  {
    if octets != [] {
      ReadEscaped(octets, rest);
      var t := EscapeOctets(octets) + rest;
      assert t[3..] == EscapeOctets(octets[1..]) + rest;
      ReadOctetsEscaped(octets[1..], rest);
      assert [octets[0]] + octets[1..] == octets;
    }
  }

  /** The decoder reads back exactly the code point the encoder wrote,
      whatever follows it. */
  lemma DecodeChunkOfEncoded(s: JsString, rest: JsString)
    requires |s| > 0 && EncodeChunk(s).Some?
    ensures |EncodeChunk(s).value.0| > 0
    ensures DecodeChunk(EncodeChunk(s).value.0 + rest)
         == Some((s[..EncodeChunk(s).value.1], |EncodeChunk(s).value.0|))
  {
    var (out, k) := EncodeChunk(s).value;
    if IsUnreserved(s[0]) {
      assert (out + rest)[0] == s[0];
      assert s[..1] == [s[0]];
    } else {
      var cp := FirstScalar(s);
      var octets := EncodeScalar(cp);
      ReadEscaped(octets, rest);
      ReadOctetsEscaped(octets, rest);
      DecodeEncode(cp);
      if k == 2 {
        Utf16OfPair(s[0], s[1]);
        assert s[..2] == [s[0], s[1]];
      } else {
        assert s[..1] == [s[0]];
      }
    }
  }

  /** Round trip: decodeURIComponent(encodeURIComponent(s)) is `s` for every
      string the encoder accepts. */
  lemma {:induction false} UriRoundTrip(s: JsString)
    requires WellFormed(s)
    ensures DecodeUriComponent(EncodeUriComponent(s).value) == Some(s)
    decreases |s|
  {
    if s != [] {
      WellFormedFirst(s);
      var (out, k) := EncodeChunk(s).value;
      var rest := EncodeUriComponent(s[k..]).value;
      assert EncodeUriComponent(s).value == out + rest;
      DecodeChunkOfEncoded(s, rest);
      assert (out + rest)[|out|..] == rest;
      UriRoundTrip(s[k..]);
      assert s[..k] + s[k..] == s;
    }
  }

  /** A `%` among the last two units of a string can never start a complete
      escape, so decoding fails: cutting an encoding inside `%XX` makes it
      undecodable. */
  lemma {:induction false} DanglingEscapeFails(t: JsString, p: nat)
    requires p < |t| <= p + 2 && t[p] == Percent
    ensures DecodeUriComponent(t) == None
    decreases |t|
  {
    match DecodeChunk(t)
    case None =>
    case Some((out, k)) =>
      assert k <= p;
      assert t[k..][p - k] == t[p];
      DanglingEscapeFails(t[k..], p - k);
  }

  /** Cutting the escapes of one code point short of their end leaves
      something the decoder rejects. */
  lemma TruncatedChunkFails(s: JsString, k: nat)
    requires |s| > 0 && EncodeChunk(s).Some?
    requires 0 < k < |EncodeChunk(s).value.0|
    ensures DecodeChunk(EncodeChunk(s).value.0[..k]) == None
  {
    var out := EncodeChunk(s).value.0;
    var t := out[..k];
    var octets := EncodeScalar(FirstScalar(s));
    assert out == EscapeOctets(octets);
    if k >= 3 {
      ReadEscaped(octets, []);
      assert t[..3] == out[..3];
      assert ReadOctet(t) == ReadOctet(out + []);
    }
  }

  /** A prefix of the decoded text, non-empty when the cut is. */
  predicate DecodesToPrefix(t: JsString, s: JsString) {
    DecodeUriComponent(t).Some? ==> DecodeUriComponent(t).value <= s && (t != [] ==> |DecodeUriComponent(t).value| > 0)
  }

  /** A cut past the first code point's escapes: the code point, then a
      prefix of the rest. */
  lemma TruncatedAfterChunk(s: JsString, rest: JsString, j: nat)
    requires |s| > 0 && EncodeChunk(s).Some? && j <= |rest|
    requires DecodesToPrefix(rest[..j], s[EncodeChunk(s).value.1..])
    ensures DecodesToPrefix((EncodeChunk(s).value.0 + rest)[..|EncodeChunk(s).value.0| + j], s)
  {
    var (out, m) := EncodeChunk(s).value;
    var t := (out + rest)[..|out| + j];
    assert t == out + rest[..j];
    DecodeChunkOfEncoded(s, rest[..j]);
    assert t[|out|..] == rest[..j];
    assert s[..m] + s[m..] == s;
  }

  /** A cut inside the first code point's escapes. */
  lemma TruncatedInChunk(s: JsString, rest: JsString, k: nat)
    requires |s| > 0 && EncodeChunk(s).Some? && 0 < k < |EncodeChunk(s).value.0|
    ensures DecodeUriComponent((EncodeChunk(s).value.0 + rest)[..k]) == None
  {
    var out := EncodeChunk(s).value.0;
    TruncatedChunkFails(s, k);
    assert (out + rest)[..k] == out[..k];
  }

  /** Decoding any prefix of an encoding either fails or gives back a
      prefix of the original string, non-empty when the cut is. */
  lemma {:induction false} DecodeTruncatedEncoding(s: JsString, k: nat)
    requires WellFormed(s) && k <= |EncodeUriComponent(s).value|
    ensures DecodesToPrefix(EncodeUriComponent(s).value[..k], s)
    decreases |s|
  {
    var e := EncodeUriComponent(s).value;
    if s != [] && k > 0 {
      var (out, m) := EncodeChunk(s).value;
      var rest := EncodeUriComponent(s[m..]).value;
      assert WellFormed(s[m..]) && e == out + rest by {
        WellFormedFirst(s);
      }
      if k >= |out| {
        DecodeTruncatedEncoding(s[m..], k - |out|);
        TruncatedAfterChunk(s, rest, k - |out|);
        assert |out| + (k - |out|) == k;
      } else {
        TruncatedInChunk(s, rest, k);
      }
    } else {
      assert e[..k] == [];
    }
  }
}

=== FILE: utf8.dfy ===
/** UTF-8 (RFC 3629) for one code point, as ECMAScript's URI functions use
    it, and for a whole string with lone surrogates replaced, as Node's
    `Buffer.from(string)` uses it. */
module Utf8 {
  import opened JsText

  type Byte = b: int | 0 <= b < 0x100

  predicate IsContinuation(b: Byte) { 0x80 <= b < 0xC0 }

  /** The number of leading one bits of an octet. */
  function LeadingOnes(b: Byte): (n: nat)
    ensures n <= 8
    ensures n == 0 <==> b < 0x80
    ensures n == 1 <==> IsContinuation(b)
  {
    if b < 0x80 then 0
    else if b < 0xC0 then 1
    else if b < 0xE0 then 2
    else if b < 0xF0 then 3
    else if b < 0xF8 then 4
    else if b < 0xFC then 5
    else if b < 0xFE then 6
    else if b < 0xFF then 7
    else 8
  }

  /** The smallest code point that needs `n` octets: anything below it in
      an `n`-octet sequence is an overlong form. */
  function MinForLength(n: nat): int {
    if n <= 1 then 0 else if n == 2 then 0x80 else if n == 3 then 0x800 else 0x1_0000
  }

  /** The UTF-8 octets of one scalar value. */
  function EncodeScalar(cp: Scalar): (r: seq<Byte>)
    ensures 1 <= |r| <= 4
    ensures |r| == 1 <==> cp < 0x80
    ensures |r| == 1 ==> r[0] == cp
    ensures |r| > 1 ==> LeadingOnes(r[0]) == |r| && forall i | 1 <= i < |r| :: IsContinuation(r[i])
  {
    if cp < 0x80 then [cp]
    else if cp < 0x800 then [0xC0 + cp / 0x40, 0x80 + cp % 0x40]
    else if cp < 0x1_0000 then [0xE0 + cp / 0x1000, 0x80 + cp / 0x40 % 0x40, 0x80 + cp % 0x40]
    else [0xF0 + cp / 0x4_0000, 0x80 + cp / 0x1000 % 0x40, 0x80 + cp / 0x40 % 0x40, 0x80 + cp % 0x40]
  }

  /** The number of octets a sequence starting with `lead` must have, or 0
      when `lead` cannot start a sequence (a continuation octet, or five or
      more leading one bits). */
  function SequenceLength(lead: Byte): (n: nat)
    ensures n <= 4
    ensures n == 1 <==> lead < 0x80
  {
    var ones := LeadingOnes(lead);
    if ones == 0 then 1 else if 2 <= ones <= 4 then ones else 0
  }

  /** The six payload bits of a continuation octet. */
  function Low6(b: Byte): int {
    b as int - 0x80
  }

  /** The payload bits of a sequence, read without any range check. */
  function Payload(octets: seq<Byte>): int
    requires 1 <= |octets| <= 4
  {
    var n := |octets|;
    var lead := octets[0] as int - (if n == 1 then 0 else if n == 2 then 0xC0 else if n == 3 then 0xE0 else 0xF0);
    if n == 1 then lead
    else if n == 2 then lead * 0x40 + Low6(octets[1])
    else if n == 3 then (lead * 0x40 + Low6(octets[1])) * 0x40 + Low6(octets[2])
    else ((lead * 0x40 + Low6(octets[1])) * 0x40 + Low6(octets[2])) * 0x40 + Low6(octets[3])
  }

  /** The code point `octets` stand for, when they are exactly one valid
      UTF-8 sequence in the sense of RFC 3629: the right length for the lead
      octet, continuation octets after it, no overlong form, no surrogate,
      nothing above U+10FFFF. */
  function DecodeScalar(octets: seq<Byte>): Option<Scalar> {
    if |octets| == 0 || |octets| != SequenceLength(octets[0]) then None
    else if exists i | 1 <= i < |octets| :: !IsContinuation(octets[i]) then None
    else
      var cp := Payload(octets);
      if cp < MinForLength(|octets|) || 0x10_FFFF < cp || 0xD800 <= cp <= 0xDFFF then None
      else Some(cp)
  }

  /** Division by one of the powers of 64 used here is determined by
      quotient and remainder. */
  lemma DivMod(x: int, d: int, q: int, r: int)
    requires d == 0x40 || d == 0x1000 || d == 0x4_0000
    requires x == q * d + r && 0 <= r < d
    ensures x / d == q && x % d == r
  {
    if d == 0x40 {
      assert x == q * 0x40 + r;
    } else if d == 0x1000 {
      assert x == q * 0x1000 + r;
    } else {
      assert x == q * 0x4_0000 + r;
    }
  }

  /** The last six bits of `cp` and the bits above them. */
  lemma Split6(cp: nat)
    ensures cp == cp / 0x40 * 0x40 + cp % 0x40
    ensures cp / 0x40 / 0x40 == cp / 0x1000 && cp / 0x1000 / 0x40 == cp / 0x4_0000
  {
    DivMod(cp, 0x1000, cp / 0x40 / 0x40, cp / 0x40 % 0x40 * 0x40 + cp % 0x40);
    DivMod(cp, 0x4_0000, cp / 0x1000 / 0x40, cp / 0x1000 % 0x40 * 0x1000 + cp % 0x1000);
  }

  /** Decoding undoes encoding. */
  lemma DecodeEncode(cp: Scalar)
    ensures DecodeScalar(EncodeScalar(cp)) == Some(cp)
  {
    var r := EncodeScalar(cp);
    Split6(cp);
    Split6(cp / 0x40);
    assert Payload(r) == cp;
  }

  /** Encoding undoes decoding: a valid sequence is the only encoding of
      its code point. */
  lemma EncodeDecode(octets: seq<Byte>)
    requires DecodeScalar(octets).Some?
    ensures EncodeScalar(DecodeScalar(octets).value) == octets
  {
    var cp := DecodeScalar(octets).value;
    var n := |octets|;
    assert n == SequenceLength(octets[0]);
    if n == 2 {
      assert IsContinuation(octets[1]);
      DivMod(cp, 0x40, octets[0] - 0xC0, Low6(octets[1]));
    } else if n == 3 {
      assert IsContinuation(octets[1]) && IsContinuation(octets[2]);
      var q := (octets[0] - 0xE0) * 0x40 + Low6(octets[1]);
      DivMod(cp, 0x40, q, Low6(octets[2]));
      DivMod(q, 0x40, octets[0] - 0xE0, Low6(octets[1]));
      Split6(cp);
    } else if n == 4 {
      assert IsContinuation(octets[1]) && IsContinuation(octets[2]) && IsContinuation(octets[3]);
      var q2 := (octets[0] - 0xF0) * 0x40 + Low6(octets[1]);
      var q := q2 * 0x40 + Low6(octets[2]);
      DivMod(cp, 0x40, q, Low6(octets[3]));
      DivMod(q, 0x40, q2, Low6(octets[2]));
      DivMod(q2, 0x40, octets[0] - 0xF0, Low6(octets[1]));
      Split6(cp);
      Split6(cp / 0x40);
    }
  }

  /** `Buffer.from(s)`: the UTF-8 octets of a string, each lone surrogate
      written as U+FFFD. */
  function EncodeString(s: JsString): (r: seq<Byte>)
    ensures |r| >= |s|
    decreases |s|
  {
    if s == [] then [] else EncodeScalar(FirstScalar(s)) + EncodeString(s[FirstLength(s)..])
  }

  /** An ASCII unit splits the octets exactly where it splits the string:
      it cannot complete or break a surrogate pair. */
  lemma {:induction false} EncodeAroundAscii(a: JsString, u: CodeUnit, b: JsString)
    requires u < 0x80
    ensures EncodeString(a + [u] + b) == EncodeString(a) + [u] + EncodeString(b)
    decreases |a|
  {
    var s := a + [u] + b;
    if a == [] {
      assert s == [u] + b;
      assert s[1..] == b;
      assert EncodeScalar(u) == [u];
    } else {
      var k := FirstLength(a);
      assert s[0] == a[0];
      assert |a| == 1 ==> s[1] == u;
      assert |a| > 1 ==> s[1] == a[1];
      assert FirstLength(s) == k && FirstScalar(s) == FirstScalar(a);
      var c := EncodeScalar(FirstScalar(a));
      assert s[k..] == a[k..] + [u] + b;
      EncodeAroundAscii(a[k..], u, b);
      calc {
        EncodeString(s);
        c + EncodeString(a[k..] + [u] + b);
        c + (EncodeString(a[k..]) + [u] + EncodeString(b));
        (c + EncodeString(a[k..])) + [u] + EncodeString(b);
      }
    }
  }

  /** An ASCII octet occurs in the encoding only where its unit occurs in
      the string: every octet of a multi-octet sequence is 0x80 or above. */
  lemma {:induction false} AsciiOctetOnlyFromUnit(s: JsString, u: CodeUnit)
    requires u < 0x80 && u !in s
    ensures u !in EncodeString(s)
    decreases |s|
  {
    if s != [] {
      var k := FirstLength(s);
      assert forall x | x in s[k..] :: x in s;
      AsciiOctetOnlyFromUnit(s[k..], u);
    }
  }
}

=== FILE: webhook.dfy ===
/** The PayPal webhook (netlify/functions/paypal-webhook.mjs): on a completed
    capture it fetches the order, reads the metadata back from custom_id,
    works out who to write to, and mails the lab and the customer. Network
    replies are inputs; the outbound requests are part of the outcome. */
module Webhook {
  import opened JsText
  import opened Uri
  import opened CustomId
  import opened PayPal

  /** The parts of the event the handler reads: `event_type` and
      `resource.supplementary_data.related_ids.order_id`. */
  datatype Event = Event(eventType: Option<JsString>, orderId: Option<JsString>)

  /** An incoming request; `body` is `None` when `req.json()` throws. JSON
      that is null or has neither field is an event with both undefined. */
  datatype Request = Request(httpMethod: JsString, body: Option<Event>)

  datatype PurchaseUnit = PurchaseUnit(customId: Option<JsString>)

  /** The fetched order: `purchase_units` (`None` when it is not an array)
      and the payer fields the handler falls back on. */
  datatype Order = Order(
    purchaseUnits: Option<seq<PurchaseUnit>>,
    payerEmail: Option<JsString>,
    payerInfoEmail: Option<JsString>,
    payerGivenName: Option<JsString>)

  datatype Mail = Mail(to: JsString, subject: JsString, text: JsString)

  /** What the handler decides once it holds the order. */
  datatype Decision = NoCustomerEmail | Handled(mails: seq<Mail>)

  /** The handler's first steps: either an answer straight away, or the
      order id to fetch. */
  datatype Gate = Answer(response: Response) | Fetch(orderId: JsString)

  function CaptureCompleted(): JsString { Js("PAYMENT.CAPTURE.COMPLETED") }

  /** Method, JSON, event type and order id, in that order; only a POSTed
      completed capture with an order id goes on to fetch the order. */
  function Triage(req: Request): (r: Gate)
    ensures req.httpMethod != Post() ==> r == Answer(Text(405, Js("Method Not Allowed")))
    ensures req.httpMethod == Post() && req.body.None? ==> r == Answer(Text(400, Js("Invalid JSON")))
    ensures (req.httpMethod == Post() && req.body.Some? && req.body.value.eventType != Some(CaptureCompleted()))
            ==> r == Answer(Text(200, Js("Ignored other event")))
    ensures (req.httpMethod == Post() && req.body.Some? && req.body.value.eventType == Some(CaptureCompleted())
             && !Truthy(req.body.value.orderId))
            ==> r == Answer(Text(200, Js("Missing order_id")))
    ensures r.Fetch? <==> req.httpMethod == Post() && req.body.Some?
                          && req.body.value.eventType == Some(CaptureCompleted()) && Truthy(req.body.value.orderId)
    ensures r.Fetch? ==> Some(r.orderId) == req.body.value.orderId
  {
    if req.httpMethod != Post() then Answer(Text(405, Js("Method Not Allowed")))
    else if req.body.None? then Answer(Text(400, Js("Invalid JSON")))
    else
      var event := req.body.value;
      if event.eventType != Some(CaptureCompleted()) then Answer(Text(200, Js("Ignored other event")))
      else if !Truthy(event.orderId) then Answer(Text(200, Js("Missing order_id")))
      else Fetch(event.orderId.value)
  }

  /** `purchase_units[0]?.custom_id || ""` when `purchase_units` is an
      array, `""` otherwise. */
  function CustomIdOf(order: Order): (r: JsString)
    ensures r != [] <==> order.purchaseUnits.Some? && |order.purchaseUnits.value| > 0
                         && Truthy(order.purchaseUnits.value[0].customId)
    ensures r != [] ==> Some(r) == order.purchaseUnits.value[0].customId
  {
    match order.purchaseUnits
    case None => []
    case Some(units) => if |units| == 0 then [] else Or(units[0].customId, Some([])).value
  }

  /** `meta?.field` for every field at once: no metadata reads as a record
      with every field undefined. */
  function Fields(meta: Option<Meta>): (m: Meta)
    ensures meta.Some? ==> m == meta.value
    ensures meta.None? ==> m.email.None? && m.name.None? && m.film.None?
                           && m.rolls.None? && m.serviceText.None? && m.amount.None?
  {
    if meta.Some? then meta.value else Meta(None, None, None, None, None, None)
  }

  /** The first truthy value of a list: the reference reading of a chain
      of `||`. */
  function FirstTruthy(vs: seq<Option<JsString>>): (r: Option<JsString>)
    ensures r.Some? <==> exists i | 0 <= i < |vs| :: Truthy(vs[i])
    ensures r.Some? ==> Truthy(r) && exists i | 0 <= i < |vs| :: vs[i] == r && forall j | 0 <= j < i :: !Truthy(vs[j])
  {
    if vs == [] then None
    else if Truthy(vs[0]) then vs[0]
    else
      var r := FirstTruthy(vs[1..]);
      assert forall i | 1 <= i < |vs| :: vs[i] == vs[1..][i - 1];
      r
  }

  /** The first truthy of three values. */
  lemma FirstTruthyOfThree(a: Option<JsString>, b: Option<JsString>, c: Option<JsString>)
    ensures FirstTruthy([a, b, c]) == if Truthy(a) then a else if Truthy(b) then b else if Truthy(c) then c else None
  {
    assert [c][1..] == [];
    assert FirstTruthy([c]) == if Truthy(c) then c else None;
    assert [b, c][1..] == [c];
    assert FirstTruthy([b, c]) == if Truthy(b) then b else FirstTruthy([c]);
    assert [a, b, c][1..] == [b, c];
  }

  /** `meta?.email || payer.email_address || payer.payer_info.email`. */
  function CustomerEmail(m: Meta, order: Order): (r: Option<JsString>)
    ensures Truthy(r) <==> FirstTruthy([m.email, order.payerEmail, order.payerInfoEmail]).Some?
    ensures Truthy(r) ==> r == FirstTruthy([m.email, order.payerEmail, order.payerInfoEmail])
  {
    FirstTruthyOfThree(m.email, order.payerEmail, order.payerInfoEmail);
    Or(Or(m.email, order.payerEmail), order.payerInfoEmail)
  }

  function DefaultName(): JsString { Js("Customer") }

  /** `meta?.name || payer.name.given_name || "Customer"`, never empty. */
  function GreetingName(m: Meta, order: Order): (r: JsString)
    ensures Some(r) == FirstTruthy([m.name, order.payerGivenName, Some(DefaultName())])
  {
    FirstTruthyOfThree(m.name, order.payerGivenName, Some(DefaultName()));
    Or(Or(m.name, order.payerGivenName), Some(DefaultName())).value
  }

  /** One line of the order summary; ranks 0 to 5 are the Name, Email,
      Film type, Number of rolls, Service and Total paid lines. */
  datatype Line = Line(rank: nat, value: JsString)

  function Label(rank: nat): JsString {
    if rank == 0 then Js("Name: ")
    else if rank == 1 then Js("Email: ")
    else if rank == 2 then Js("Film type: ")
    else if rank == 3 then Js("Number of rolls: ")
    else if rank == 4 then Js("Service: ")
    else Js("Total paid: ")
  }

  function RenderLine(l: Line): JsString {
    Label(l.rank) + l.value + (if l.rank == 5 then Js(" EUR\n") else Js("\n"))
  }

  function RenderLines(ls: seq<Line>): JsString {
    if ls == [] then [] else RenderLine(ls[0]) + RenderLines(ls[1..])
  }

  /** The metadata field behind each optional line. */
  function FieldAt(m: Meta, rank: nat): Option<JsString> {
    if rank == 0 then m.name
    else if rank == 2 then m.film
    else if rank == 3 then m.rolls
    else if rank == 4 then m.serviceText
    else if rank == 5 then m.amount
    else None
  }

  /** The line of rank `rank`, if the summary has one: the Email line
      always, every other line for a truthy field. */
  function LineAt(m: Meta, email: JsString, rank: nat): Option<Line> {
    if rank == 1 then Some(Line(1, email))
    else if Truthy(FieldAt(m, rank)) then Some(Line(rank, FieldAt(m, rank).value))
    else None
  }

  predicate Ascending(ls: seq<Line>) {
    forall i, j | 0 <= i < j < |ls| :: ls[i].rank < ls[j].rank
  }

  /** The lines from `rank` on, in the fixed order. */
  function LinesFrom(m: Meta, email: JsString, rank: nat): (ls: seq<Line>)
    requires rank <= 6
    ensures Ascending(ls)
    ensures forall i | 0 <= i < |ls| :: rank <= ls[i].rank < 6
    decreases 6 - rank
  {
    if rank == 6 then []
    else
      var tail := LinesFrom(m, email, rank + 1);
      match LineAt(m, email, rank)
      case None => tail
      case Some(line) =>
        var ls := [line] + tail;
        assert forall i | 1 <= i < |ls| :: ls[i] == tail[i - 1];
        ls
  }

  /** Every line of `ls` is the line its rank calls for. */
  predicate LinesHold(m: Meta, email: JsString, ls: seq<Line>) {
    forall i | 0 <= i < |ls| :: LineAt(m, email, ls[i].rank) == Some(ls[i])
  }

  /** Putting the line of one more rank in front keeps every line right. */
  lemma ConsHolds(m: Meta, email: JsString, line: Line, tail: seq<Line>)
    requires LineAt(m, email, line.rank) == Some(line) && LinesHold(m, email, tail)
    ensures LinesHold(m, email, [line] + tail)
  {
    var ls := [line] + tail;
    forall i | 0 <= i < |ls|
      ensures LineAt(m, email, ls[i].rank) == Some(ls[i])
    {
      if i > 0 {
        assert ls[i] == tail[i - 1];
      }
    }
  }

  /** What each line holds: the email on the Email line, and on every
      other line the value of its field, which is truthy. */
  lemma {:induction false} LinesFromValues(m: Meta, email: JsString, rank: nat)
    requires rank <= 6
    ensures LinesHold(m, email, LinesFrom(m, email, rank))
    decreases 6 - rank
  {
    if rank < 6 {
      LinesFromValues(m, email, rank + 1);
      var line := LineAt(m, email, rank);
      if line.Some? {
        assert line.value.rank == rank;
        ConsHolds(m, email, line.value, LinesFrom(m, email, rank + 1));
      }
    }
  }

  /** Every line the summary should have is there. */
  lemma {:induction false} LinesFromPresent(m: Meta, email: JsString, rank: nat, k: nat)
    requires rank <= k < 6 && LineAt(m, email, k).Some?
    ensures LineAt(m, email, k).value in LinesFrom(m, email, rank)
    decreases 6 - rank
  {
    if k != rank {
      LinesFromPresent(m, email, rank + 1, k);
    }
  }

  /** The lines of the summary. */
  function SummaryLines(m: Meta, email: JsString): seq<Line> {
    LinesFrom(m, email, 0)
  }

  /** The layout of the summary: lines in the fixed order Name, Email, Film
      type, Number of rolls, Service, Total paid; the Email line always, with
      the resolved email; every other line exactly when its field is
      truthy, holding that field. */
  lemma SummaryLayout(m: Meta, email: JsString)
    ensures Ascending(SummaryLines(m, email))
    ensures Line(1, email) in SummaryLines(m, email)
    ensures forall l | l in SummaryLines(m, email) && l.rank != 1 ::
              l.rank < 6 && Truthy(FieldAt(m, l.rank)) && FieldAt(m, l.rank).value == l.value
    ensures forall k: nat | k < 6 && k != 1 && Truthy(FieldAt(m, k)) ::
              Line(k, FieldAt(m, k).value) in SummaryLines(m, email)
  {
    LinesFromValues(m, email, 0);
    LinesFromPresent(m, email, 0, 1);
    forall k: nat | k < 6 && k != 1 && Truthy(FieldAt(m, k))
      ensures Line(k, FieldAt(m, k).value) in SummaryLines(m, email)
    {
      LinesFromPresent(m, email, 0, k);
    }
  }

  /** `Order details:\n\n` followed by the lines. */
  function Summary(m: Meta, email: JsString): JsString {
    Js("Order details:\n\n") + RenderLines(SummaryLines(m, email))
  }

  function LabSubject(): JsString { Js("New paid film order") }
  function CustomerSubject(): JsString { Js("Your Analog Film Lab order & payment confirmation") }

  function CustomerText(name: JsString, summary: JsString): JsString {
    Js("Hi ") + name + Js(",\n\nThank you for your order and payment.\n\n") + summary
      + Js("\nWe will start processing your film and get back to you when your scans are ready.\n\n– Analog Film Lab")
  }

  /** The metadata as the handler reads it: `meta?.field` on whatever
      the first purchase unit's custom_id unpacks to. */
  function MetaOf(order: Order): Meta {
    Fields(Unpack(CustomIdOf(order)))
  }

  /** Everything the handler decides from the order, its metadata `m` and
      the lab address: no mail without a customer email; otherwise the lab
      summary (when a lab address is set) and then the customer
      confirmation. */
  function Decide(order: Order, m: Meta, labEmail: Option<JsString>): Decision {
    var email := CustomerEmail(m, order);
    if !Truthy(email) then NoCustomerEmail
    else
      var summary := Summary(m, email.value);
      var customer := Mail(email.value, CustomerSubject(), CustomerText(GreetingName(m, order), summary));
      if Truthy(labEmail) then Handled([Mail(labEmail.value, LabSubject(), summary), customer])
      else Handled([customer])
  }

  /** The decision in terms of the reference chains: no customer email
      exactly when none of the three candidates is truthy; otherwise the
      customer confirmation last, preceded by the lab summary exactly when a
      lab address is set. */
  lemma DecideMails(order: Order, m: Meta, labEmail: Option<JsString>)
    ensures Decide(order, m, labEmail).NoCustomerEmail?
        <==> FirstTruthy([m.email, order.payerEmail, order.payerInfoEmail]).None?
    ensures var r := Decide(order, m, labEmail);
            r.Handled? ==>
              var email := FirstTruthy([m.email, order.payerEmail, order.payerInfoEmail]).value;
              && |r.mails| == (if Truthy(labEmail) then 2 else 1)
              && r.mails[|r.mails| - 1] == Mail(email, CustomerSubject(), CustomerText(GreetingName(m, order), Summary(m, email)))
              && (Truthy(labEmail) ==> r.mails[0] == Mail(labEmail.value, LabSubject(), Summary(m, email)))
  {
    FirstTruthyOfThree(m.email, order.payerEmail, order.payerInfoEmail);
    var email := CustomerEmail(m, order);
    if Truthy(email) {
      var summary := Summary(m, email.value);
      var customer := Mail(email.value, CustomerSubject(), CustomerText(GreetingName(m, order), summary));
      var mails := if Truthy(labEmail) then [Mail(labEmail.value, LabSubject(), summary), customer] else [customer];
      assert Decide(order, m, labEmail) == Handled(mails);
    }
  }

  /** The SendGrid request for one mail. */
  datatype SendRequest = SendRequest(apiKey: JsString, from: JsString, senderName: JsString, mail: Mail)

  /** The sender address: Netlify FROM_EMAIL, Netlify LAB_EMAIL, process
      FROM_EMAIL, process LAB_EMAIL, the first that is not undefined. */
  function Sender(env: Env): (r: Option<JsString>)
    ensures "FROM_EMAIL" in env.netlify ==> r == Some(env.netlify["FROM_EMAIL"])
    ensures "FROM_EMAIL" !in env.netlify && "LAB_EMAIL" in env.netlify ==> r == Some(env.netlify["LAB_EMAIL"])
    ensures "FROM_EMAIL" !in env.netlify && "LAB_EMAIL" !in env.netlify && "FROM_EMAIL" in env.process
            ==> r == Some(env.process["FROM_EMAIL"])
    ensures "FROM_EMAIL" !in env.netlify && "LAB_EMAIL" !in env.netlify && "FROM_EMAIL" !in env.process
            ==> r == Get(env.process, "LAB_EMAIL")
  {
    Coalesce(Get(env.netlify, "FROM_EMAIL"), Coalesce(Get(env.netlify, "LAB_EMAIL"),
      Coalesce(Get(env.process, "FROM_EMAIL"), Get(env.process, "LAB_EMAIL"))))
  }

  /** `sendEmail` up to the fetch: nothing is sent without an API key, a
      sender or a recipient. */
  function SendEmail(env: Env, mail: Mail): (r: Option<SendRequest>)
    ensures r.None? <==> !Truthy(GetEnv(env, "SENDGRID_API_KEY")) || !Truthy(Sender(env)) || mail.to == []
    ensures r.Some? ==> r.value.mail == mail && r.value.apiKey == GetEnv(env, "SENDGRID_API_KEY").value
                        && r.value.from == Sender(env).value
  {
    var apiKey := GetEnv(env, "SENDGRID_API_KEY");
    var from := Sender(env);
    if !Truthy(apiKey) || !Truthy(from) || mail.to == [] then None
    else Some(SendRequest(apiKey.value, from.value, Js("Analog Film Lab"), mail))
  }

  /** SendGrid's answer: accepted, a non-ok status (logged and swallowed),
      or a thrown fetch (which reaches the handler's catch). */
  datatype SendResult = Delivered | Refused | SendThrew

  /** The network's answer to each request. */
  type Mailer = SendRequest -> SendResult

  /** The requests `sendEmail` would make for `mails`, in order, skipped
      mails left out: every request is the one made for one of the mails,
      and every mail that is not skipped has its request. */
  function Planned(env: Env, mails: seq<Mail>): (qs: seq<SendRequest>)
    ensures |qs| <= |mails|
    ensures forall i | 0 <= i < |qs| :: qs[i].mail in mails && SendEmail(env, qs[i].mail) == Some(qs[i])
    ensures forall k | 0 <= k < |mails| && SendEmail(env, mails[k]).Some? :: SendEmail(env, mails[k]).value in qs
  {
    if mails == [] then []
    else
      var tail := Planned(env, mails[1..]);
      assert forall k | 1 <= k < |mails| :: mails[k] == mails[1..][k - 1];
      match SendEmail(env, mails[0])
      case None => tail
      case Some(q) =>
        var qs := [q] + tail;
        assert forall i | 1 <= i < |qs| :: qs[i] == tail[i - 1];
        qs
  }

  /** The plan keeps the order of the mails: the plan of two lists of
      mails one after the other is their plans one after the other. */
  lemma {:induction false} PlannedConcat(env: Env, a: seq<Mail>, b: seq<Mail>)
    ensures Planned(env, a + b) == Planned(env, a) + Planned(env, b)
    decreases |a|
  {
    if a == [] {
      assert a + b == b;
    } else {
      assert (a + b)[0] == a[0];
      assert (a + b)[1..] == a[1..] + b;
      PlannedConcat(env, a[1..], b);
    }
  }

  /** When no mail is skipped, the plan is every mail's request, in the
      order of the mails. */
  lemma {:induction false} PlannedAll(env: Env, mails: seq<Mail>)
    requires forall i | 0 <= i < |mails| :: SendEmail(env, mails[i]).Some?
    ensures Planned(env, mails) == seq(|mails|, i requires 0 <= i < |mails| => SendEmail(env, mails[i]).value)
    decreases |mails|
  {
    if mails != [] {
      assert forall k | 0 <= k < |mails[1..]| :: mails[1..][k] == mails[k + 1];
      PlannedAll(env, mails[1..]);
    }
  }

  /** How far the mails got: the requests made, and whether every one of
      them returned (a thrown send stops the rest). */
  datatype Dispatched = Dispatched(completed: bool, sent: seq<SendRequest>)

  /** The awaited sends one after another: a refused send is swallowed and
      the next one goes out; a thrown send ends the run. */
  function Dispatch(qs: seq<SendRequest>, send: Mailer): (d: Dispatched)
    ensures d.sent <= qs
    ensures forall i | 0 <= i < |d.sent| - 1 :: send(d.sent[i]) != SendThrew
    ensures d.completed <==> forall i | 0 <= i < |d.sent| :: send(d.sent[i]) != SendThrew
    ensures d.completed ==> d.sent == qs
    ensures !d.completed ==> |d.sent| > 0 && send(d.sent[|d.sent| - 1]) == SendThrew
  {
    if qs == [] then Dispatched(true, [])
    else if send(qs[0]) == SendThrew then
      var d := Dispatched(false, [qs[0]]);
      assert send(d.sent[0]) == SendThrew;
      d
    else
      var rest := Dispatch(qs[1..], send);
      var d := Dispatched(rest.completed, [qs[0]] + rest.sent);
      assert forall i | 1 <= i < |d.sent| :: d.sent[i] == rest.sent[i - 1];
      assert qs == [qs[0]] + qs[1..];
      d
  }

  datatype Call = TokenCall(token: TokenRequest) | GetOrderCall(url: JsString, authorization: JsString) | MailCall(request: SendRequest)

  /** The fetched order, or a failure `getOrderDetails` throws (a non-ok
      status, a thrown fetch, or a body that is not JSON). */
  datatype OrderFetch = Fetched(order: Order) | FetchFailed

  datatype Outcome = Outcome(response: Response, calls: seq<Call>)

  function MailCalls(qs: seq<SendRequest>): (cs: seq<Call>)
    ensures |cs| == |qs|
    ensures forall i | 0 <= i < |qs| :: cs[i] == MailCall(qs[i])
  {
    if qs == [] then [] else [MailCall(qs[0])] + MailCalls(qs[1..])
  }

  /** The URL `getOrderDetails` fetches; `None` when encodeURIComponent
      throws on the order id. */
  function OrderUrl(baseUrl: JsString, orderId: JsString): (r: Option<JsString>)
    ensures r.Some? <==> WellFormed(orderId)
  {
    match EncodeUriComponent(orderId)
    case None => None
    case Some(segment) => Some(baseUrl + Js("/v2/checkout/orders/") + segment)
  }

  /** The order id travels as one path segment that decodes back to it:
      its encoding holds no `/`, `?` or `#`. */
  lemma OrderUrlCarriesId(baseUrl: JsString, orderId: JsString)
    requires WellFormed(orderId)
    ensures var prefix := baseUrl + Js("/v2/checkout/orders/");
            var r := OrderUrl(baseUrl, orderId).value;
            && |prefix| <= |r| && r[..|prefix|] == prefix
            && DecodeUriComponent(r[|prefix|..]) == Some(orderId)
            && forall i | |prefix| <= i < |r| :: r[i] != Slash && r[i] != 0x3F && r[i] != 0x23
  {
    var prefix := baseUrl + Js("/v2/checkout/orders/");
    var segment := EncodeUriComponent(orderId).value;
    var r := prefix + segment;
    assert r[..|prefix|] == prefix;
    assert r[|prefix|..] == segment;
    UriRoundTrip(orderId);
    forall i | |prefix| <= i < |r|
      ensures r[i] != Slash && r[i] != 0x3F && r[i] != 0x23
    {
      assert r[i] == segment[i - |prefix|];
    }
  }

  /** What the handler does with a fetched order: the response and the
      mail requests it makes. */
  datatype Delivery = Delivery(response: Response, mailCalls: seq<Call>)

  /** The decision for a fetched order, with the lab address from the
      settings. */
  function Resolve(env: Env, order: Order): Decision {
    Decide(order, MetaOf(order), GetEnv(env, "LAB_EMAIL"))
  }

  /** The planned requests sent in order: "Webhook handled" exactly when
      every send returned; a thrown one ends the run with "Server error". */
  function Report(qs: seq<SendRequest>, send: Mailer): (r: Delivery)
    ensures |r.mailCalls| <= |qs|
    ensures forall i | 0 <= i < |r.mailCalls| :: r.mailCalls[i] == MailCall(qs[i])
    ensures forall i | 0 <= i < |r.mailCalls| - 1 :: send(qs[i]) != SendThrew
    ensures r.response == Text(200, Js("Webhook handled")) <==> forall i | 0 <= i < |r.mailCalls| :: send(qs[i]) != SendThrew
    ensures r.response == Text(200, Js("Webhook handled")) ==> |r.mailCalls| == |qs|
    ensures r.response != Text(200, Js("Webhook handled")) ==> r.response == ServerError()
  {
    var d := Dispatch(qs, send);
    assert Text(200, Js("Webhook handled")) != ServerError();
    assert forall i | 0 <= i < |d.sent| :: d.sent[i] == qs[i];
    Delivery(if d.completed then Text(200, Js("Webhook handled")) else ServerError(), MailCalls(d.sent))
  }

  /** Two planned requests: the first is always sent, and the second
      follows it exactly when the first send did not throw. */
  lemma ReportPair(qs: seq<SendRequest>, send: Mailer)
    requires |qs| == 2
    ensures var r := Report(qs, send);
            && 1 <= |r.mailCalls| <= 2 && r.mailCalls[0] == MailCall(qs[0])
            && (send(qs[0]) != SendThrew ==> |r.mailCalls| == 2 && r.mailCalls[1] == MailCall(qs[1]))
            && (send(qs[0]) == SendThrew ==> |r.mailCalls| == 1)
  {
  }

  /** The decision carried out: "No customer email" and no mail, or the
      planned mails sent in order, answered with "Webhook handled" exactly
      when every send returned. A refused send changes nothing; a thrown
      one ends the run with "Server error". */
  function Deliver(env: Env, decision: Decision, send: Mailer): (r: Delivery)
    ensures decision.NoCustomerEmail? ==> r == Delivery(Text(200, Js("No customer email")), [])
    ensures decision.Handled? ==>
              var qs := Planned(env, decision.mails);
              && |r.mailCalls| <= |qs|
              && (forall i | 0 <= i < |r.mailCalls| :: r.mailCalls[i] == MailCall(qs[i]))
              && (forall i | 0 <= i < |r.mailCalls| - 1 :: send(qs[i]) != SendThrew)
              && (r.response == Text(200, Js("Webhook handled")) <==> forall i | 0 <= i < |r.mailCalls| :: send(qs[i]) != SendThrew)
              && (r.response == Text(200, Js("Webhook handled")) ==> |r.mailCalls| == |qs|)
              && (r.response != Text(200, Js("Webhook handled")) ==> r.response == ServerError())
  {
    match decision
    case NoCustomerEmail => Delivery(Text(200, Js("No customer email")), [])
    case Handled(mails) => Report(Planned(env, mails), send)
  }

  /** With a lab address set, a handled order has two mails: the lab
      summary to the lab address first, the customer confirmation second. */
  lemma ResolveLabFirst(env: Env, order: Order)
    requires Truthy(GetEnv(env, "LAB_EMAIL")) && Resolve(env, order).Handled?
    ensures var mails := Resolve(env, order).mails;
            && |mails| == 2
            && mails[0] == Mail(GetEnv(env, "LAB_EMAIL").value, LabSubject(), mails[0].text)
            && mails[1].to != [] && mails[1].subject == CustomerSubject()
  {
    var email := CustomerEmail(MetaOf(order), order);
    assert Truthy(email);
  }

  /** A decision of two mails, both sendable: the first mail's request is
      always made, and the second's follows it exactly when the first send
      did not throw. */
  lemma DeliverPair(env: Env, decision: Decision, send: Mailer)
    requires decision.Handled? && |decision.mails| == 2
    requires SendEmail(env, decision.mails[0]).Some? && SendEmail(env, decision.mails[1]).Some?
    ensures var r := Deliver(env, decision, send);
            && 1 <= |r.mailCalls| <= 2 && r.mailCalls[0] == MailCall(SendEmail(env, decision.mails[0]).value)
            && (send(SendEmail(env, decision.mails[0]).value) != SendThrew ==>
                  |r.mailCalls| == 2 && r.mailCalls[1] == MailCall(SendEmail(env, decision.mails[1]).value))
            && (send(SendEmail(env, decision.mails[0]).value) == SendThrew ==> |r.mailCalls| == 1)
  {
    PlannedAll(env, decision.mails);
    ReportPair(Planned(env, decision.mails), send);
  }

  /** With a lab address set and mail configured, a handled order sends the
      lab summary first and the customer confirmation second; the second
      goes out exactly when sending the first did not throw. */
  lemma LabMailFirst(env: Env, order: Order, send: Mailer)
    requires Truthy(GetEnv(env, "LAB_EMAIL")) && Truthy(GetEnv(env, "SENDGRID_API_KEY")) && Truthy(Sender(env))
    requires Resolve(env, order).Handled?
    ensures var mails := Resolve(env, order).mails;
            var r := Deliver(env, Resolve(env, order), send);
            && |mails| == 2
            && mails[0].to == GetEnv(env, "LAB_EMAIL").value && mails[0].subject == LabSubject()
            && mails[1].subject == CustomerSubject()
            && 1 <= |r.mailCalls| && r.mailCalls[0] == MailCall(SendEmail(env, mails[0]).value)
            && (send(SendEmail(env, mails[0]).value) != SendThrew ==>
                  |r.mailCalls| == 2 && r.mailCalls[1] == MailCall(SendEmail(env, mails[1]).value))
            && (send(SendEmail(env, mails[0]).value) == SendThrew ==> |r.mailCalls| == 1)
  {
    var decision := Resolve(env, order);
    ResolveLabFirst(env, order);
    DeliverPair(env, decision, send);
  }

  /** `getOrderDetails` finds both credentials set. */
  predicate ConfigOk(env: Env) {
    Truthy(GetPayPalConfig(env).clientId) && Truthy(GetPayPalConfig(env).secret)
  }

  /** What the handler does with the result of the order fetch: nothing
      for a failed fetch, otherwise the delivery of the decision for the
      fetched order. */
  function Delivered(env: Env, fetch: OrderFetch, send: Mailer): Option<Delivery> {
    match fetch
    case FetchFailed => None
    case Fetched(order) => Some(Deliver(env, Resolve(env, order), send))
  }

  /** The order fetch and the delivery, after the calls already made;
      `delivered` is `None` when the fetch failed. */
  function AfterFetch(delivered: Option<Delivery>, before: seq<Call>): (o: Outcome)
    ensures |before| <= |o.calls| && o.calls[..|before|] == before
    ensures delivered.None? ==> o == Outcome(ServerError(), before)
    ensures delivered.Some? ==>
              && o.response == delivered.value.response
              && o.calls == before + delivered.value.mailCalls
  {
    match delivered
    case None => Outcome(ServerError(), before)
    case Some(delivery) =>
      var calls := before + delivery.mailCalls;
      assert calls[..|before|] == before;
      Outcome(delivery.response, calls)
  }

  /** The steps after the token: the order URL, the order request and the
      delivery, after the calls already made. */
  function AfterToken(baseUrl: JsString, accessToken: JsString, orderId: JsString,
                      delivered: Option<Delivery>, before: seq<Call>): (o: Outcome)
    ensures |before| <= |o.calls| && o.calls[..|before|] == before
    ensures !WellFormed(orderId) ==> o == Outcome(ServerError(), before)
    ensures WellFormed(orderId) ==>
              && |o.calls| >= |before| + 1
              && o.calls[|before|] == GetOrderCall(OrderUrl(baseUrl, orderId).value, Js("Bearer ") + accessToken)
    ensures WellFormed(orderId) && delivered.Some? ==>
              && o.response == delivered.value.response
              && o.calls[|before| + 1..] == delivered.value.mailCalls
    ensures !(WellFormed(orderId) && delivered.Some?) ==>
              && o.response == ServerError() && |o.calls| <= |before| + 1
              && (|o.calls| == |before| + 1 ==> o.calls[|before|].GetOrderCall?)
  {
    match OrderUrl(baseUrl, orderId)
    case None => Outcome(ServerError(), before)
    case Some(url) =>
      var calls := before + [GetOrderCall(url, Js("Bearer ") + accessToken)];
      var o := AfterFetch(delivered, calls);
      assert o.calls[|before|] == o.calls[..|calls|][|before|] == calls[|before|];
      assert o.calls[..|before|] == before by {
        assert o.calls[..|before|] == o.calls[..|calls|][..|before|];
        assert calls[..|before|] == before;
      }
      assert delivered.Some? ==> o.calls[|calls|..] == delivered.value.mailCalls;
      o
  }

  /** `getOrderDetails` gets as far as the delivery: both credentials set,
      a token granted, an order id encodeURIComponent accepts, and the
      order fetched. */
  predicate Ready(env: Env, orderId: JsString, token: TokenResult, fetch: OrderFetch) {
    ConfigOk(env) && token.Granted? && WellFormed(orderId) && fetch.Fetched?
  }

  /** The token request made with the configured credentials. */
  function TokenCallOf(env: Env): Call
    requires ConfigOk(env)
  {
    var c := GetPayPalConfig(env);
    TokenCall(AccessTokenRequest(c.baseUrl, c.clientId.value, c.secret.value))
  }

  /** Everything after the order id is known: configuration, token, order
      fetch, then the delivery. */
  function Reconcile(env: Env, orderId: JsString, token: TokenResult, fetch: OrderFetch, send: Mailer): Outcome {
    if !ConfigOk(env) then Outcome(ServerError(), [])
    else
      match token
      case TokenFailed => Outcome(ServerError(), [TokenCallOf(env)])
      case Granted(accessToken) =>
        AfterToken(GetPayPalConfig(env).baseUrl, accessToken, orderId, Delivered(env, fetch, send), [TokenCallOf(env)])
  }

  /** No request at all without both credentials, and otherwise the token
      request first. */
  lemma ReconcileTokenFirst(env: Env, orderId: JsString, token: TokenResult, fetch: OrderFetch, send: Mailer)
    ensures !ConfigOk(env) ==> Reconcile(env, orderId, token, fetch, send) == Outcome(ServerError(), [])
    ensures var o := Reconcile(env, orderId, token, fetch, send);
            o.calls != [] ==> ConfigOk(env) && o.calls[0] == TokenCallOf(env)
  {
    if ConfigOk(env) && token.Granted? {
      var o := AfterToken(GetPayPalConfig(env).baseUrl, token.accessToken, orderId, Delivered(env, fetch, send), [TokenCallOf(env)]);
      assert o.calls[..1] == [TokenCallOf(env)];
    }
  }

  /** Once the order is fetched, the answer is the delivery's, and its mail
      requests follow the token and order requests. */
  lemma ReconcileDelivers(env: Env, orderId: JsString, token: TokenResult, fetch: OrderFetch, send: Mailer)
    requires Ready(env, orderId, token, fetch)
    ensures var o := Reconcile(env, orderId, token, fetch, send);
            && |o.calls| >= 2
            && o.calls[1] == GetOrderCall(OrderUrl(GetPayPalConfig(env).baseUrl, orderId).value,
                                          Js("Bearer ") + token.accessToken)
            && o.response == Deliver(env, Resolve(env, fetch.order), send).response
            && o.calls[2..] == Deliver(env, Resolve(env, fetch.order), send).mailCalls
  {
    var d := Deliver(env, Resolve(env, fetch.order), send);
    assert Delivered(env, fetch, send) == Some(d);
  }

  /** Any failure before the delivery is "Server error", after at most the
      token and order requests, and no mail goes out. */
  lemma ReconcileFails(env: Env, orderId: JsString, token: TokenResult, fetch: OrderFetch, send: Mailer)
    requires !Ready(env, orderId, token, fetch)
    ensures var o := Reconcile(env, orderId, token, fetch, send);
            && o.response == ServerError() && |o.calls| <= 2
            && forall i | 0 <= i < |o.calls| :: !o.calls[i].MailCall?
    ensures ConfigOk(env) && (token.TokenFailed? || !WellFormed(orderId))
            ==> Reconcile(env, orderId, token, fetch, send) == Outcome(ServerError(), [TokenCallOf(env)])
    ensures ConfigOk(env) && token.Granted? && WellFormed(orderId) && fetch.FetchFailed?
            ==> Reconcile(env, orderId, token, fetch, send).calls
                == [TokenCallOf(env), GetOrderCall(OrderUrl(GetPayPalConfig(env).baseUrl, orderId).value,
                                                   Js("Bearer ") + token.accessToken)]
  {
    if ConfigOk(env) && token.Granted? {
      var o := AfterToken(GetPayPalConfig(env).baseUrl, token.accessToken, orderId, Delivered(env, fetch, send), [TokenCallOf(env)]);
      assert o.calls[..1] == [TokenCallOf(env)];
    }
  }

  /** The whole handler: a triaged request is answered straight away;
      otherwise the named order is reconciled. */
  function Handle(req: Request, env: Env, token: TokenResult, fetch: OrderFetch, send: Mailer): (o: Outcome)
    ensures Triage(req).Answer? ==> o == Outcome(Triage(req).response, [])
    ensures Triage(req).Fetch? ==> o == Reconcile(env, Triage(req).orderId, token, fetch, send)
  {
    match Triage(req)
    case Answer(response) => Outcome(response, [])
    case Fetch(orderId) => Reconcile(env, orderId, token, fetch, send)
  }

  /** The requests the handler sends: nothing leaves it but the answer
      unless a POSTed completed capture names an order; the token request
      always goes first; and mail goes out only for an order that was
      fetched. */
  lemma HandleRequests(req: Request, env: Env, token: TokenResult, fetch: OrderFetch, send: Mailer)
    ensures var o := Handle(req, env, token, fetch, send);
            o.calls != [] ==> Triage(req).Fetch? && ConfigOk(env) && o.calls[0] == TokenCallOf(env)
    ensures var o := Handle(req, env, token, fetch, send);
            (exists i | 0 <= i < |o.calls| :: o.calls[i].MailCall?) ==>
              Triage(req).Fetch? && Ready(env, Triage(req).orderId, token, fetch)
  {
    if Triage(req).Fetch? {
      var orderId := Triage(req).orderId;
      ReconcileTokenFirst(env, orderId, token, fetch, send);
      if !Ready(env, orderId, token, fetch) {
        ReconcileFails(env, orderId, token, fetch, send);
      }
    }
  }
}
